=== FILE: README.md ===
# HiddenMarketDNA rolling PCA backtest, modelled in Dafny

This project models the exact, non-numerical core of HiddenMarketDNA, a
rolling principal-component backtest over a multi-asset return table. It
covers five parts of the system:

- **`RollingPCABacktest.run` / `get_results`** (`RollingBacktest`). This is
  the two-pass walk-forward loop:
  - Pass 1 fits a PCA on every trailing window and records the standard
    deviation of the first factor, `PC1`.
  - One regime threshold is then fixed as a quantile of that whole list.
  - Pass 2 refits on each window `[t - window, t)` and builds
    target-factor weights. It scales them by `risk_scale_high_vol` when the
    window's `PC1` volatility is strictly above the threshold, and scores
    them against row `t + 1`.
  - Every output is labelled with `dates[window + 1:]`.
- **`PortfolioEngine`** (`PortfolioEngine`). Input checks, restriction of
  returns and loadings to their common assets, L1 normalisation of the
  target loading column, replication across dates, and per-date portfolio
  returns.
- **`PCAEngine`** (`PcaEngine`, with `FactorNaming` for the `PC1..PCk`
  labels). The unfitted/fitted lifecycle and its guards, plus the shapes and
  labels of `transform`, `get_eigen_portfolios` and `explained_variance`.
  The decomposition itself is abstract: a `Numerics` value supplies
  loadings, variance ratios and projections as uninterpreted functions of
  the fit sample.
- **`contiguous_regions`** (`Regions`). Turns a boolean series into the
  end-exclusive `(start, end)` intervals of its maximal True runs.
- **The diagnostics** (`Diagnostics`). The explained-variance table with its
  cumulative column, per-asset variance contributions, the market-dominance
  ratio, and the summary report.

Supporting modules:

- `Outcomes` holds `Result`/`Option` and the exceptions the code can raise.
- `Frames` holds uniquely-labelled data frames and series, with column
  selection, row selection and label intersection.
- `Vectors` holds sums, L1 norms, dot products and scaling over `real`.

## Conventions

- Python exceptions are `Err` values.
- pandas frames are `Frames.Frame`: a row index, column labels and a
  rectangular value table, with distinct labels on both axes.
- Floating-point numbers are `real`.
- The two float statistics the backtest calls, `Series.std` and
  `np.quantile`, are parameters (`RollingBacktest.Statistics`).
- `factors.corr()` in the summary report is a parameter too.

## Behaviour worth knowing

- **Scored row and date label.** Pass 2 fits on rows `[t - window, t)` and
  scores row `t + 1`. Row `t` is neither fitted nor scored. The result is
  labelled with date `t + 1`.
- **Weight normalisation.** `build_market_neutral_weights` divides by the
  L1 norm of the target loadings without checking it. The model requires
  that norm to be non-zero (`TargetExposed`: `AbsSum != 0`), but only for
  steps that reach the division (`DividesByNorm`: the window fits, the
  target factor is kept and at least two assets are held). A table without
  assets therefore meets the assumption, and its run fails at pass 1's
  first fit (`NoAssetsRejectedByFit`).
- **Short return tables.**
  - With `len(returns) <= window`, pass 1 collects nothing. `np.quantile`
    then raises on the empty list (`EmptyQuantile`), provided its level is
    valid.
  - With `len(returns) == window + 1`, the run succeeds with three empty
    series, provided pass 1's single fit succeeds and the quantile level is
    in `[0, 1]`.
- **Quantile level.** `np.quantile` checks its level before it looks at the
  data. A `vol_threshold_quantile` outside `[0, 1]` therefore fails the run
  with `QuantileOutOfRange` as soon as pass 1 has finished, even when pass 1
  collected nothing.
- **Shape failures.** Every shape failure comes from the libraries:
  - Fitting fails with `FitRejected` unless the sample has at least one row
    and one column and asks for no more components than `min(rows, cols)`
    (`LibraryAccepts`).
  - `transform` fails with `EmptySample` on a frame with no rows or no
    columns.
  - `transform` fails with `FeatureMismatch` on a frame with a different
    column count.
- **Threshold calibration.** The threshold is the quantile of every pass-1
  value, including the last window's, which no step scores. The threshold
  applied at an early step therefore already reflects windows that end well
  after that step's scored row.

## Model

| member | source | states |
|---|---|---|
| RollingBacktest.InSample | src/rolling_backtest.py:49 | the in-sample frame of step t holds exactly `window` rows, namely rows `[t - window, t)` of the returns, with all their columns |
| RollingBacktest.EngineVolatility | src/rolling_backtest.py:51-55 | the pass-1 loop body (fit a fresh engine on the window, transform the window, std of column "PC1") succeeds iff the library accepts a `window x assets` sample with `n_components >= 1`, and fails only with `FitRejected` or `KeyError("PC1")`; `EngineVolatilityIsPc1Volatility` proves it equal to `Pc1Volatility` |
| RollingBacktest.EngineVolatilityIsPc1Volatility | src/rolling_backtest.py:48-55 | the code path (fit a fresh engine on the window, transform the same window, take the std of column "PC1") equals `Pc1Volatility`, the independent statement: `FitRejected` when the library refuses a `window x assets` sample, `KeyError("PC1")` when no component is kept, else the std of the window's first projected coordinate |
| RollingBacktest.WalkForward | src/rolling_backtest.py:66-94 | a loop over `[lo, hi)` succeeds iff every step succeeds, then yields `hi - lo` values with entry k the result of step `lo + k`; otherwise it reports the error of the first failing step, and every earlier step succeeded |
| RollingBacktest.Pass1 | src/rolling_backtest.py:48-55 | a successful pass 1 holds one value per `t` in `[window, len)`, in order, each the `PC1` volatility of the window ending before row t |
| RollingBacktest.Pass1Outcome | src/rolling_backtest.py:48-57 | pass 1 succeeds iff there are no windows or the library accepts a `window x assets` sample with `n_components >= 1`, so that "PC1" exists; the only errors are `FitRejected` and `KeyError("PC1")` |
| RollingBacktest.WindowPortfolio | src/rolling_backtest.py:70-82 | the portfolio engine built from the window's loadings fails with `UnknownFactor` iff the target is not among `PC1..PCk`, and with `InsufficientOverlap` iff there are fewer than two assets; otherwise its exposure is the target's loading column over all assets, in their original order |
| RollingBacktest.EngineWeights | src/rolling_backtest.py:70-84 | the pass-2 weight pipeline (fit, get_eigen_portfolios, a PortfolioEngine on the window, row 0 of build_market_neutral_weights) yields one weight per asset with absolute sum 1, or fails with `FitRejected`, `UnknownFactor` or `InsufficientOverlap`; `EngineWeightsAreBaseWeights` proves it equal to `BaseWeights` |
| RollingBacktest.EngineWeightsAreBaseWeights | src/rolling_backtest.py:70-84 | building weights through fit, get_eigen_portfolios, the portfolio engine and `.iloc[0]` gives the target loadings divided by their L1 norm, and the same errors |
| RollingBacktest.BaseWeightsNormalised | src/rolling_backtest.py:78-84 | a step's unscaled weights have one entry per asset, and their absolute values sum to 1 |
| RollingBacktest.StepAt | src/rolling_backtest.py:66-94 | a pass-2 step succeeds iff both the window's volatility and its weights can be computed; its error is one of `FitRejected`, `KeyError("PC1")`, `UnknownFactor`, `InsufficientOverlap` |
| RollingBacktest.StepRule | src/rolling_backtest.py:84-91 | a step's weights are the base weights scaled by `risk_scale_high_vol` iff the window's volatility is strictly above the threshold, and unscaled otherwise; its return is their dot product with row t + 1 |
| RollingBacktest.StepGrossExposure | src/rolling_backtest.py:84-88 | with a non-negative scale, a step's absolute weights sum to `risk_scale_high_vol` in the high-volatility regime and to 1 otherwise |
| RollingBacktest.Pass2 | src/rolling_backtest.py:66-94 | a successful pass 2 holds exactly `len - window - 1` steps, or none when there is no complete step |
| RollingBacktest.Pass2Outcome | src/rolling_backtest.py:66-84 | pass 2 succeeds iff it has no steps or the library accepts the window, `PC1` exists, the target factor is one of `PC1..PCk` and there are at least two assets; each of the four errors is one the code raises |
| RollingBacktest.Pass2Step | src/rolling_backtest.py:66-94 | entry k of pass 2 is step `window + k`, and row `window + k + 1` exists |
| RollingBacktest.Run | src/rolling_backtest.py:38-115 | run followed by get_results: pass 1, then numpy's level check and empty-list check, then pass 2; a successful run's three outputs share one date index and one length. `RunOutcome`, `RunAligned`, `RunWellFormed`, `RunVolatility` and the per-entry lemmas below state the rest |
| RollingBacktest.RunOutcome | src/rolling_backtest.py:38-106 | once pass 1 succeeds, a quantile level outside `[0, 1]` fails the run with `QuantileOutOfRange`; with a valid level and `len <= window` it fails with the empty-quantile error; it succeeds iff the level is in `[0, 1]`, `len > window`, the library accepts the window with `n_components >= 1`, and either there is no pass-2 step or the target is one of `PC1..PCk` with at least two assets; every error is one the code raises |
| RollingBacktest.NoAssetsRejectedByFit | src/rolling_backtest.py:48-52 | a return table without assets never reaches the weight normalisation, so it meets the non-zero-norm assumption, and once it has a full window the run fails with the fit's rejection |
| RollingBacktest.RunAligned | src/rolling_backtest.py:97-106 | returns, weight history and volatility series are all labelled with `dates[window + 1:]`, and there are `len - window - 1` portfolio returns |
| RollingBacktest.RunWellFormed | src/rolling_backtest.py:97-106 | the three outputs are well-formed series and frames; the weight history has the asset columns, or none when it has no rows |
| RollingBacktest.RunVolatility | src/rolling_backtest.py:57-63 | the threshold is the configured quantile of the complete pass-1 list, which has `len - window` entries, one per window; the volatility series is that list without its last entry |
| RollingBacktest.RunEntry | src/rolling_backtest.py:93-106 | entry k of every output comes from step k of the passes: volatility from pass 1, weights and return from pass 2 |
| RollingBacktest.RunStepFacts | src/rolling_backtest.py:84-94 | recorded weights and return k are those of step `window + k`, run with the run's own threshold |
| RollingBacktest.RunVolatilityEntry | src/rolling_backtest.py:60-63 | volatility entry k is the `PC1` volatility of the window ending before row `window + k` |
| RollingBacktest.RunStepVolatile | src/rolling_backtest.py:84-88 | when volatility entry k is strictly above the threshold, recorded weights k are the window's base weights scaled by `risk_scale_high_vol` |
| RollingBacktest.RunStepCalm | src/rolling_backtest.py:84-88 | when volatility entry k is at most the threshold, recorded weights k are the window's unscaled base weights |
| RollingBacktest.RunScore | src/rolling_backtest.py:91-94 | portfolio return k is the dot product of recorded weights k with row `window + k + 1`, and those weights have one entry per asset |
| RollingBacktest.RunGrossExposure | src/rolling_backtest.py:78-88 | with a non-negative scale, each recorded weight vector has absolute sum `risk_scale_high_vol` when its volatility entry exceeds the threshold, and 1 otherwise |
| RollingBacktest.ScaledUnitExposure | src/rolling_backtest.py:87-88 | scaling a vector of unit L1 norm by a non-negative factor c gives L1 norm c |
| RollingBacktest.VolatilitySeesOnlyItsWindow | src/rolling_backtest.py:49-55 | two return tables that agree on rows `[t - window, t)` give the same volatility at step t |
| RollingBacktest.WeightsSeeOnlyTheirWindow | src/rolling_backtest.py:67-84 | two return tables that agree on rows `[t - window, t)` give the same weights at step t; the scored row never reaches the fit |
| RollingBacktest.StepSeesOnlyWindowAndNextRow | src/rolling_backtest.py:66-91 | a step's whole outcome depends only on its window and on row t + 1 |
| PortfolioEngine.CommonAssetsInReturnOrder | src/portfolio_engine.py:40 | the common assets are exactly the labels in both the return columns and the loading rows, without repeats, in the return columns' order |
| PortfolioEngine.NewPortfolio | src/portfolio_engine.py:30-45 | construction fails with `UnknownFactor` iff the target is not a loadings column, then with `InsufficientOverlap` iff fewer than two assets are common; otherwise returns and loadings are restricted to the common assets, in the same order, with their values kept |
| PortfolioEngine.Exposure | src/portfolio_engine.py:56 | the exposure is the target column of the loadings, one entry per common asset |
| PortfolioEngine.Weights | src/portfolio_engine.py:56-59 | with a non-zero L1 norm, weights have absolute sum 1; each weight has its loading's sign; and any two weights stand in the ratio of their loadings |
| PortfolioEngine.NormalisedBy | src/portfolio_engine.py:59 | dividing a vector by its own positive L1 norm gives unit L1 norm, keeps every sign and keeps every ratio |
| PortfolioEngine.UnitNorm | src/portfolio_engine.py:59 | a vector scaled by c, where c times its L1 norm is 1, has unit L1 norm |
| PortfolioEngine.BuildWeights | src/portfolio_engine.py:47-68 | the weight table has one row per return date and the asset columns; every row is the normalised weight vector, so all rows are equal and each has absolute sum 1 |
| PortfolioEngine.PortfolioReturns | src/portfolio_engine.py:70-86 | portfolio returns share the returns' dates, and each is the dot product of that date's weights with that date's returns |
| PortfolioEngine.PortfolioReturnsScale | src/portfolio_engine.py:84 | scaling every weight row by c scales every portfolio return by c |
| PcaEngine.NewEngine | src/pca_engine.py:14-20 | a new engine is unfitted and keeps its component setting |
| PcaEngine.Fit | src/pca_engine.py:22-38 | non-DataFrame input fails with a type error; otherwise fit succeeds iff the library accepts the shape, and a successful fit is fitted and records the fit-time columns, index and sample, and keeps `n_components` components, or `min(rows, columns)` when it is None |
| PcaEngine.Transform | src/pca_engine.py:40-57 | transform fails before fit, then with `EmptySample` on a frame with no rows or no columns, then with `FeatureMismatch` on a different column count, and succeeds otherwise; its output keeps the input's row index, names its columns `PC1..PCk` in order, and holds the projection of each row |
| PcaEngine.EigenPortfolios | src/pca_engine.py:59-74 | loadings exist iff the engine is fitted; they are indexed by the fit-time asset columns, with factor columns `PC1..PCk` |
| PcaEngine.ExplainedVariance | src/pca_engine.py:76-86 | explained variance exists iff the engine is fitted, with one ratio per component labelled `PC1..PCk` |
| PcaEngine.AccessorsRequireFit | src/pca_engine.py:40-81 | on an unfitted engine, transform, get_eigen_portfolios and explained_variance all raise the not-fitted error |
| PcaEngine.FitEnablesAccessors | src/pca_engine.py:34-38 | after a successful fit on a frame, all three accessors succeed, and transforming that frame keeps its row count |
| PcaEngine.FitForgetsPreviousState | src/pca_engine.py:22-38 | the result of fit does not depend on any earlier fit |
| PcaEngine.TransformIsRowwise | src/pca_engine.py:47-49 | transforming a non-empty slice of rows gives the same slice of the transformed rows |
| FactorNaming.ParseFactorNameInvertsFactorName | src/pca_engine.py:51 | the label `PC{i+1}` parses back to i |
| FactorNaming.FactorNameInjective | src/pca_engine.py:51 | distinct component positions get distinct labels |
| FactorNaming.FactorNames | src/pca_engine.py:51 | the labels of k components are k distinct strings |
| FactorNaming.LeadingFactorPosition | src/rolling_backtest.py:55 | "PC1" is a factor label iff there is at least one component, and then it is the first column |
| Frames.Column | src/rolling_backtest.py:55 | a column lookup succeeds iff the label is a column, and otherwise raises `KeyError` for that label |
| Frames.IntersectionKeepsOrder | src/portfolio_engine.py:40 | the intersection of labels lists shared labels in the first list's order |
| Frames.IntersectionOfSubset | src/portfolio_engine.py:40 | intersecting with a superset gives back the first list |
| Frames.SelectColumns | src/portfolio_engine.py:44 | `returns[common]` has exactly the chosen columns, with each value taken from the same-named column |
| Frames.SelectRows | src/portfolio_engine.py:45 | `loadings.loc[common]` has exactly the chosen rows, each taken from the same-labelled row |
| Frames.SelectAllColumns | src/portfolio_engine.py:44 | selecting all of a frame's columns in their order returns the frame unchanged |
| Frames.SelectAllRows | src/portfolio_engine.py:45 | selecting all of a frame's rows in their order returns the frame unchanged |
| Regions.ContiguousRegions | src/visualization.py:48-66 | the function raises an index error iff the series is empty |
| Regions.BoundariesAreFlips | src/visualization.py:53-63 | the boundary list (change positions plus one, with 0 and the size added) is exactly the ordered list of positions where the value differs from the one before, with outside positions read as False |
| Regions.EvenBoundaries | src/visualization.py:57-65 | the boundary list has even length, so reshaping it into pairs never fails |
| Regions.SpansAreFlipPairs | src/visualization.py:57-66 | the k-th pair is the (2k)-th and (2k+1)-th boundary |
| Regions.SpansOrdered | src/visualization.py:57-65 | every pair satisfies `start < end <= size`, and consecutive pairs are strictly ordered with a gap between them |
| Regions.InsideIsTrue | src/visualization.py:53-65 | every position inside a returned `[start, end)` is True |
| Regions.TrueIsInside | src/visualization.py:53-65 | every True position lies inside some returned pair |
| Regions.InsideExactlyOne | src/visualization.py:53-65 | no position lies inside two different pairs |
| Regions.SpansMaximal | src/visualization.py:57-63 | each run is maximal: its start is 0 or follows a False, and its end is the size or a False position |
| Regions.SpanCountIsRunCount | src/visualization.py:53-65 | the number of pairs is the number of maximal True runs, counted as positions that are True after a False or at the start |
| Regions.AllFalseNoSpans | src/visualization.py:57-63 | an all-False series gives no pairs |
| Regions.AllTrueOneSpan | src/visualization.py:57-63 | an all-True series gives the single pair `(0, size)` |
| Diagnostics.CumSumIsPrefixSum | src/diagnostics.py:15 | cumulative entry k is the sum of the first k + 1 ratios, so the last entry is the total |
| Diagnostics.CumSumSteps | src/diagnostics.py:15 | `cum[0] = var[0]` and `cum[k+1] = cum[k] + var[k+1]` |
| Diagnostics.CumSumMonotone | src/diagnostics.py:15 | with non-negative ratios the cumulative column never decreases |
| Diagnostics.ExplainedVarianceTable | src/diagnostics.py:7-18 | the table exists iff the engine is fitted; it is labelled `PC1..PCk` with the columns "Explained Variance" and "Cumulative Variance" |
| Diagnostics.ExplainedVarianceRow | src/diagnostics.py:11-16 | row j holds ratio j and the sum of ratios 0..j |
| Diagnostics.FactorContributions | src/diagnostics.py:21-30 | contributions exist iff the engine is fitted, with the loadings' shape and labels |
| Diagnostics.ContributionIsShare | src/diagnostics.py:27-28 | each contribution is a squared loading divided by its column's sum of squares, and lies in `[0, 1]` |
| Diagnostics.ContributionsSumToOne | src/diagnostics.py:28 | every factor column of contributions sums to 1 |
| Diagnostics.MarketDominanceRatio | src/diagnostics.py:33-38 | the ratio exists iff the engine is fitted with at least one component; otherwise it is the not-fitted or index error |
| Diagnostics.MarketDominanceInTable | src/diagnostics.py:37-38 | market dominance is the first explained-variance ratio, equal to the first entry of both table columns; with non-negative ratios it is at most the total |
| Diagnostics.SummaryReport | src/diagnostics.py:49-60 | the report exists iff the engine is fitted with at least one component, and otherwise raises the error of the first failing entry |
| Diagnostics.ReportConsistent | src/diagnostics.py:53-58 | the report's dominance is the table's first entry; its contributions are labelled by the table's factors and the fit-time assets; its orthogonality entry is the correlation of the given factors |

## Left out

- **Library numerics.** StandardScaler and PCA numerics, `Series.std` and
  `np.quantile` are uninterpreted parameters. Floating-point rounding, NaN
  and infinity are not modelled: values are exact reals.
- **NaN from zero norms.** pandas divides by a zero L1 norm and yields NaN
  weights. The model instead requires a non-zero norm:
  - `RollingBacktest.TargetExposed` requires it for every pass-2 window
    that reaches the division;
  - `PortfolioEngine.Weights` and `PortfolioEngine.BuildWeights` require it
    of their portfolio.
- **NaN from zero loading columns.** `factor_contributions` divides by a
  column's sum of squares. The model requires every factor column to have a
  non-zero loading (`Diagnostics.LoadingsNonZero`) instead of producing NaN.
- PortfolioEngine.PortfolioReturns: requires the weight table to carry
  exactly the returns' dates and assets. pandas would align mismatched
  labels and fill NaN.
- RollingBacktest.RunGrossExposure and
  RollingBacktest.StepGrossExposure: assume `risk_scale_high_vol >= 0`.
  For a negative scale the absolute sum is its magnitude.
- **Copying and in-place updates.** `returns.copy()`, `weights *= ...`, and
  the fact that fit returns `self` are not modelled. Every value is
  immutable, so the caller's data is untouched by construction. Fit returns
  the fitted engine as a new value.
- **`get_results`.** The triple it returns is the first three fields of
  `RollingBacktest.BacktestResult`. The fourth field is the threshold, which
  the object also keeps.
- **`factor_orthogonality`.** Float correlation, passed to
  `Diagnostics.SummaryReport` as a function.
- **Plotting.** `plot_portfolio_with_regimes` and the rest of plotting are
  matplotlib output.
- **Other modules.** These are not part of this model:
  - `src/data_loader.py` and `src/generate_csv.py`: files and the network;
  - `main.py`: wiring and printing;
  - `src/returns.py`, `src/performance.py` and `src/factors.py`:
    transcendental and float statistics.
- PcaEngine.Fit: a failed fit returns only the error, and the caller
  keeps the engine it had. In the code, refitting an already fitted engine
  that then fails behaves differently:
  - `scaler.fit_transform` has already run on the new sample, or reset the
    scaler if it rejected that sample;
  - the PCA may already have recorded the new column count;
  - `fitted` stays True and `columns_` keeps the old labels.
  A later `transform` on that engine would then scale with parameters from
  the rejected sample, or fail. The model does not represent this half-updated
  engine. The backtest never meets it: it builds a fresh engine for every
  window and stops at the first error.
- RollingBacktest.RunStepVolatile, RollingBacktest.RunStepCalm and
  RollingBacktest.StepAt: pass 2 recomputes each window's volatility with
  a new fit instead of reusing pass 1's value. The model uses one function
  of the window for both passes, so a recorded volatility above the
  threshold always means the step scaled its weights. That assumes the fit
  is deterministic. With the randomized PCA solver, which the library picks
  for large inputs and which here has no fixed seed, the two fits can
  differ. Near the threshold, the reported series and the scaling could
  then disagree.
- RollingBacktest.Run: models one `run()` on a freshly constructed backtest
  followed by `get_results()`; the object's own state is not modelled.
  - Before any run, `get_results()` returns `([], [], None)`
    (src/rolling_backtest.py:33-35 and 115).
  - A second `run()` on the same object with at least one pass-2 step
    fails at the appends on lines 93-94. By then `weights_history` and
    `portfolio_returns` are a DataFrame and a Series, not lists, and
    pandas 2 has no `append` on either.
  - After an error in pass 2, `vol_threshold` and `pc1_vol_series` are
    already set (lines 57-63) and the two lists hold the steps before the
    failing one. The model returns only the error.
- **Engine settings.** The engine's `n_components` is a natural number or
  None. Other Python values, such as floats meaning a variance fraction, are
  not modelled.

=== FILE: diagnostics.dfy ===
/** Diagnostics of a fitted PCA engine: the explained-variance table, the
    per-asset variance contributions to each factor, the first factor's share
    of variance and the report that bundles them. Each accessor of the engine
    raises before fit, and so does every diagnostic built on it. */
module Diagnostics {
  import opened Outcomes
  import opened Frames
  import opened Vectors
  import opened FactorNaming
  import opened PcaEngine

  const ExplainedColumn: Label := "Explained Variance"
  const CumulativeColumn: Label := "Cumulative Variance"

  /** Series.cumsum. */
  function CumSum(v: seq<real>): (c: seq<real>)
    ensures |c| == |v|
  {
    if |v| == 0 then [] else CumSum(v[..|v| - 1]) + [Sum(v)]
  }

  /** Entry k of the running total is the sum of the first k + 1 entries. */
  lemma {:induction false} CumSumIsPrefixSum(v: seq<real>, k: nat)
    requires k < |v|
    ensures CumSum(v)[k] == Sum(v[..k + 1])
  {
    var n := |v| - 1;
    if k < n {
      CumSumIsPrefixSum(v[..n], k);
      assert v[..n][..k + 1] == v[..k + 1];
    } else {
      assert v[..k + 1] == v;
    }
  }

  /** Extending a prefix by one entry adds that entry to its sum. */
  lemma SumExtend(v: seq<real>, k: nat)
    requires k < |v|
    ensures Sum(v[..k + 1]) == Sum(v[..k]) + v[k]
  {
    assert v[..k + 1][..k] == v[..k];
  }

  /** The running total starts at the first entry and grows by each next one. */
  lemma CumSumSteps(v: seq<real>, k: nat)
    requires k + 1 < |v|
    ensures CumSum(v)[0] == v[0]
    ensures CumSum(v)[k + 1] == CumSum(v)[k] + v[k + 1]
  {
    CumSumIsPrefixSum(v, 0);
    SumExtend(v, 0);
    assert v[..0] == [];
    CumSumIsPrefixSum(v, k);
    CumSumIsPrefixSum(v, k + 1);
    SumExtend(v, k + 1);
  }

  /** With non-negative entries the running total never decreases. */
  lemma {:induction false} CumSumMonotone(v: seq<real>, k: nat, l: nat)
    requires forall i :: 0 <= i < |v| ==> v[i] >= 0.0
    requires k <= l < |v|
    ensures CumSum(v)[k] <= CumSum(v)[l]
  {
    if k < l {
      CumSumMonotone(v, k, l - 1);
      CumSumSteps(v, l - 1);
    }
  }

  /** The first n explained-variance ratios of a fitted engine. */
  function Ratios(e: Engine, n: nat): (r: seq<real>)
    requires e.IsFitted()
    ensures |r| == n
  {
    seq(n, j requires 0 <= j < n => e.numerics.varianceRatio(e.state.sample, j))
  }

  /** explained_variance_table: one row per component, with its ratio and the
      running total of the ratios. */
  function ExplainedVarianceTable(e: Engine): (r: Result<Frame>)
    ensures r.Ok? <==> e.IsFitted()
    ensures r.Err? ==> r.error == NotFitted
    ensures r.Ok? ==>
      && r.value.Valid()
      && r.value.index == FactorNames(e.state.components)
      && r.value.columns == [ExplainedColumn, CumulativeColumn]
  {
    var ev :- ExplainedVariance(e);
    var v := ev.values;
    var c := CumSum(v);
    Ok(Frame(ev.index, [ExplainedColumn, CumulativeColumn],
      seq(|v|, j requires 0 <= j < |v| => [v[j], c[j]])))
  }

  /** Row j of the table holds ratio j and the sum of ratios 0..j. */
  lemma ExplainedVarianceRow(e: Engine, j: nat)
    requires e.IsFitted() && j < e.state.components
    ensures
      var t := ExplainedVarianceTable(e).value;
      && j < |t.values|
      && t.values[j][0] == e.numerics.varianceRatio(e.state.sample, j)
      && t.values[j][1] == Sum(Ratios(e, j + 1))
  {
    var v := ExplainedVariance(e).value.values;
    assert v == Ratios(e, e.state.components);
    CumSumIsPrefixSum(v, j);
    assert v[..j + 1] == Ratios(e, j + 1);
  }

  /** x squared: never negative, and positive when x is not zero. */
  function Square(x: real): (y: real)
    ensures y >= 0.0
    ensures x != 0.0 ==> y > 0.0
  {
    SquareSign(x, x * x);
    x * x
  }

  lemma SquareSign(x: real, y: real)
    requires y == x * x
    ensures y >= 0.0
    ensures x != 0.0 ==> y > 0.0
  {
    if x < 0.0 {
      assert y == (-x) * (-x);
      ProductPositive(-x, -x, y);
    } else if x > 0.0 {
      ProductPositive(x, x, y);
    }
  }

  lemma ProductPositive(a: real, b: real, p: real)
    requires a > 0.0 && b > 0.0 && p == a * b
    ensures p > 0.0
  {
  }

  /** The squared loadings of factor j, one per asset. */
  function Squares(e: Engine, j: nat): (s: seq<real>)
    requires e.IsFitted()
    ensures |s| == |e.state.columns|
    ensures forall a :: 0 <= a < |s| ==> s[a] >= 0.0
  {
    var m := |e.state.columns|;
    var s := seq(m, a requires 0 <= a < m => Square(e.numerics.loading(e.state.sample, a, j)));
    assert forall a :: 0 <= a < m ==> s[a] == Square(e.numerics.loading(e.state.sample, a, j));
    s
  }

  /** Factor j has an asset with a non-zero loading. */
  predicate FactorLoaded(e: Engine, j: nat)
    requires e.IsFitted()
  {
    exists a :: 0 <= a < |e.state.columns| && e.numerics.loading(e.state.sample, a, j) != 0.0
  }

  /** Every factor has an asset with a non-zero loading (the library's
      components have unit norm, so this always holds of a real fit). */
  predicate LoadingsNonZero(e: Engine)
    requires e.IsFitted()
  {
    forall j :: 0 <= j < e.state.components ==> FactorLoaded(e, j)
  }

  /** contributions.sum(axis=0) for factor j. */
  function ColumnTotal(e: Engine, j: nat): (s: real)
    requires e.IsFitted() && LoadingsNonZero(e) && j < e.state.components
    ensures s > 0.0
  {
    assert FactorLoaded(e, j);
    var a :| 0 <= a < |e.state.columns| && e.numerics.loading(e.state.sample, a, j) != 0.0;
    SumPositive(Squares(e, j), a);
    Sum(Squares(e, j))
  }

  /** factor_contributions: squared loadings, each column divided by its
      total, laid out like the loadings (assets by factors). */
  function FactorContributions(e: Engine): (r: Result<Frame>)
    requires e.Valid()
    requires e.IsFitted() ==> LoadingsNonZero(e)
    ensures r.Ok? <==> e.IsFitted()
    ensures r.Err? ==> r.error == NotFitted
    ensures r.Ok? ==>
      && r.value.Valid()
      && r.value.index == e.state.columns
      && r.value.columns == FactorNames(e.state.components)
  {
    var l :- EigenPortfolios(e);
    var m, k := |e.state.columns|, e.state.components;
    Ok(Frame(l.index, l.columns,
      seq(m, a requires 0 <= a < m =>
        seq(k, j requires 0 <= j < k => Squares(e, j)[a] / ColumnTotal(e, j)))))
  }

  /** Column j of a frame's values. */
  function ColumnValues(f: Frame, j: nat): (col: seq<real>)
    requires f.Valid() && j < |f.columns|
    ensures |col| == |f.index|
  {
    seq(|f.index|, a requires 0 <= a < |f.index| => f.values[a][j])
  }

  /** Each contribution is the asset's squared loading over the factor's
      total, and so lies in [0, 1]. */
  lemma ContributionIsShare(e: Engine, a: nat, j: nat)
    requires e.Valid() && e.IsFitted() && LoadingsNonZero(e)
    requires a < |e.state.columns| && j < e.state.components
    ensures
      var x := FactorContributions(e).value.values[a][j];
      && x == Squares(e, j)[a] / ColumnTotal(e, j)
      && 0.0 <= x <= 1.0
  {
    var s := Squares(e, j);
    EntryAtMostSum(s, a);
    ShareBounds(s[a], ColumnTotal(e, j));
  }

  /** A part of a positive total, divided by the total, lies in [0, 1]. */
  lemma ShareBounds(x: real, total: real)
    requires 0.0 <= x <= total && total > 0.0
    ensures 0.0 <= x / total <= 1.0
  {
    DivisionIsScaling(x, total);
    DivisionIsScaling(total, total);
  }

  /** The contributions to each factor sum to 1 over the assets. */
  lemma ContributionsSumToOne(e: Engine, j: nat)
    requires e.Valid() && e.IsFitted() && LoadingsNonZero(e)
    requires j < e.state.components
    ensures Sum(ColumnValues(FactorContributions(e).value, j)) == 1.0
  {
    var f := FactorContributions(e).value;
    var col := ColumnValues(f, j);
    var s := Squares(e, j);
    var total := ColumnTotal(e, j);
    assert forall a :: 0 <= a < |col| ==> col[a] == s[a] / total;
    DivisionIsScalingAll(col, s, total);
    SumScaled(col, 1.0 / total, s);
    InverseTimes(total);
  }

  /** market_dominance_ratio: the first explained-variance ratio, which does
      not exist when no component is kept. */
  function MarketDominanceRatio(e: Engine): (r: Result<real>)
    ensures r.Ok? <==> e.IsFitted() && e.state.components >= 1
    ensures !e.IsFitted() ==> r == Err(NotFitted)
    ensures e.IsFitted() && e.state.components == 0 ==> r == Err(IndexError)
  {
    var ev :- ExplainedVariance(e);
    if |ev.values| == 0 then Err(IndexError) else Ok(ev.values[0])
  }

  /** The dominance ratio is the first factor's variance ratio, the first
      entry of both table columns, and, when the ratios are non-negative, at
      most the total variance the kept factors explain. */
  lemma MarketDominanceInTable(e: Engine)
    requires MarketDominanceRatio(e).Ok?
    ensures
      var d := MarketDominanceRatio(e).value;
      var t := ExplainedVarianceTable(e).value;
      && d == e.numerics.varianceRatio(e.state.sample, 0)
      && |t.values| >= 1
      && d == t.values[0][0] == t.values[0][1]
      && ((forall j :: 0 <= j < e.state.components ==> e.numerics.varianceRatio(e.state.sample, j) >= 0.0) ==>
            d <= Sum(Ratios(e, e.state.components)))
  {
    ExplainedVarianceRow(e, 0);
    var one := Ratios(e, 1);
    assert one[..0] == [];
    var all := Ratios(e, e.state.components);
    if forall j :: 0 <= j < e.state.components ==> e.numerics.varianceRatio(e.state.sample, j) >= 0.0 {
      EntryAtMostSum(all, 0);
    }
  }

  /** summary_report's four entries. */
  datatype Report = Report(
    explainedVariance: Frame,
    marketDominance: real,
    orthogonality: Frame,
    contributions: Frame)

  /** summary_report: the entries are computed in the order the dictionary
      lists them, so the first failure is the table's, then the dominance
      ratio's; factors.corr() is a parameter. */
  function SummaryReport(e: Engine, factors: Frame, corr: Frame -> Frame): (r: Result<Report>)
    requires e.Valid()
    requires e.IsFitted() ==> LoadingsNonZero(e)
    ensures r.Ok? <==> e.IsFitted() && e.state.components >= 1
    ensures !e.IsFitted() ==> r == Err(NotFitted)
    ensures e.IsFitted() && e.state.components == 0 ==> r == Err(IndexError)
  {
    var table :- ExplainedVarianceTable(e);
    var dominance :- MarketDominanceRatio(e);
    Ok(Report(table, dominance, corr(factors), FactorContributions(e).value))
  }

  /** The report's parts agree with each other: the dominance ratio is the
      table's first row, the contribution columns are the table's factors,
      the contribution rows are the fitted assets, and the orthogonality
      entry is the correlation of the given factors. */
  lemma ReportConsistent(e: Engine, factors: Frame, corr: Frame -> Frame)
    requires e.Valid()
    requires e.IsFitted() ==> LoadingsNonZero(e)
    requires SummaryReport(e, factors, corr).Ok?
    ensures
      var rep := SummaryReport(e, factors, corr).value;
      && |rep.explainedVariance.values| >= 1
      && rep.marketDominance == rep.explainedVariance.values[0][0] == rep.explainedVariance.values[0][1]
      && rep.contributions.columns == rep.explainedVariance.index
      && rep.contributions.index == e.state.columns
      && rep.orthogonality == corr(factors)
  {
    MarketDominanceInTable(e);
  }
}

=== FILE: factor_naming.dfy ===
/** Factor labels "PC1", "PC2", ...: the decimal rendering of a component's
    1-based rank after the prefix "PC". The parser is the printer's inverse and
    is what makes the labels pairwise distinct. */
module FactorNaming {
  import opened Outcomes
  import opened Frames

  predicate IsDigit(ch: char)
  {
    '0' <= ch <= '9'
  }

  function DigitChar(d: nat): (ch: char)
    requires d < 10
    ensures IsDigit(ch)
  {
    (('0' as int) + d) as char
  }

  function DigitValue(ch: char): (d: nat)
    requires IsDigit(ch)
    ensures d < 10
  {
    (ch as int) - ('0' as int)
  }

  /** Python's str(n) for a natural number. */
  function Decimal(n: nat): (s: string)
    ensures |s| >= 1
    ensures forall i :: 0 <= i < |s| ==> IsDigit(s[i])
  {
    if n < 10 then [DigitChar(n)] else Decimal(n / 10) + [DigitChar(n % 10)]
  }

  /** Python's int(s) for a string of decimal digits. */
  function ParseDecimal(s: string): nat
    requires forall i :: 0 <= i < |s| ==> IsDigit(s[i])
  {
    if |s| == 0 then 0 else ParseDecimal(s[..|s| - 1]) * 10 + DigitValue(s[|s| - 1])
  }

  lemma {:induction false} ParseDecimalInvertsDecimal(n: nat)
    ensures ParseDecimal(Decimal(n)) == n
  {
    var s := Decimal(n);
    if n >= 10 {
      assert s[..|s| - 1] == Decimal(n / 10);
      ParseDecimalInvertsDecimal(n / 10);
    }
  }

  /** f"PC{i+1}": the label of the component at 0-based position i. */
  function FactorName(i: nat): string
  {
    "PC" + Decimal(i + 1)
  }

  /** Reads a factor label back to its 0-based position. */
  function ParseFactorName(s: string): Option<nat>
  {
    if |s| >= 3 && s[..2] == "PC" && (forall i :: 2 <= i < |s| ==> IsDigit(s[i])) then
      var rank := ParseDecimal(s[2..]);
      if rank >= 1 then Some(rank - 1) else None
    else
      None
  }

  lemma ParseFactorNameInvertsFactorName(i: nat)
    ensures ParseFactorName(FactorName(i)) == Some(i)
  {
    var s := FactorName(i);
    assert s[2..] == Decimal(i + 1);
    ParseDecimalInvertsDecimal(i + 1);
  }

  lemma FactorNameInjective(i: nat, j: nat)
    ensures FactorName(i) == FactorName(j) ==> i == j
  {
    ParseFactorNameInvertsFactorName(i);
    ParseFactorNameInvertsFactorName(j);
  }

  /** [f"PC{i+1}" for i in range(k)]. */
  function FactorNames(k: nat): (names: seq<string>)
    ensures |names| == k
    ensures Distinct(names)
  {
    var names := seq(k, i requires 0 <= i < k => FactorName(i));
    forall i, j | 0 <= i < j < k
      ensures names[i] != names[j]
    {
      FactorNameInjective(i, j);
    }
    names
  }

  /** "PC1" names the first column of any non-empty factor table and no other. */
  lemma LeadingFactorPosition(k: nat)
    ensures "PC1" in FactorNames(k) <==> k >= 1
    ensures k >= 1 ==> IndexOf(FactorNames(k), "PC1") == 0
  {
    if k >= 1 {
      assert FactorNames(k)[0] == "PC1";
    }
  }
}

=== FILE: frames.dfy ===
/** The slice of pandas the core relies on: frames and series with labelled
    rows and columns, column lookup, positional row slices, label selection
    and index intersection. Only uniquely-labelled frames are modelled. */
module Frames {
  import opened Outcomes

  type Label = string

  predicate Distinct<T(==)>(s: seq<T>)
  {
    forall i, j :: 0 <= i < j < |s| ==> s[i] != s[j]
  }

  /** A DataFrame: row labels, column labels and one row of values per row label. */
  datatype Frame = Frame(index: seq<Label>, columns: seq<Label>, values: seq<seq<real>>)
  {
    predicate Valid()
    {
      && |values| == |index|
      && (forall r :: 0 <= r < |values| ==> |values[r]| == |columns|)
      && Distinct(index)
      && Distinct(columns)
    }
  }

  /** A Series: one value per label. */
  datatype Series = Series(index: seq<Label>, values: seq<real>)
  {
    predicate Valid()
    {
      |index| == |values|
    }
  }

  /** Position of the first occurrence of x in s. */
  function IndexOf(s: seq<Label>, x: Label): (i: nat)
    requires x in s
    ensures i < |s| && s[i] == x
    ensures forall j :: 0 <= j < i ==> s[j] != x
  {
    if s[0] == x then 0 else 1 + IndexOf(s[1..], x)
  }

  lemma IndexOfDistinct(s: seq<Label>, i: nat)
    requires Distinct(s) && i < |s|
    ensures IndexOf(s, s[i]) == i
  {
  }

  lemma DistinctSlice<T>(s: seq<T>, lo: nat, hi: nat)
    requires Distinct(s) && lo <= hi <= |s|
    ensures Distinct(s[lo..hi])
  {
    forall i, j | 0 <= i < j < hi - lo
      ensures s[lo..hi][i] != s[lo..hi][j]
    {
      assert s[lo..hi][i] == s[lo + i] && s[lo..hi][j] == s[lo + j];
    }
  }

  /** df[c]: the column labelled c, or a KeyError. */
  function Column(f: Frame, c: Label): (r: Result<seq<real>>)
    requires f.Valid()
    ensures r.Ok? <==> c in f.columns
    ensures r.Err? ==> r.error == KeyError(c)
    ensures r.Ok? ==> |r.value| == |f.index|
  {
    if c in f.columns then
      var j := IndexOf(f.columns, c);
      Ok(seq(|f.values|, k requires 0 <= k < |f.values| => f.values[k][j]))
    else
      Err(KeyError(c))
  }

  /** df.iloc[lo:hi]: the rows at positions lo .. hi-1, in order. */
  function RowSlice(f: Frame, lo: nat, hi: nat): (r: Frame)
    requires f.Valid() && lo <= hi <= |f.index|
    ensures r.Valid()
    ensures r.index == f.index[lo..hi] && r.columns == f.columns && r.values == f.values[lo..hi]
  {
    DistinctSlice(f.index, lo, hi);
    Frame(f.index[lo..hi], f.columns, f.values[lo..hi])
  }

  /** Index.intersection: the labels of a that also occur in b, in a's order. */
  function Intersection(a: seq<Label>, b: seq<Label>): (r: seq<Label>)
    ensures forall x :: x in r <==> x in a && x in b
    ensures Distinct(a) ==> Distinct(r)
  {
    if |a| == 0 then []
    else
      var rest := Intersection(a[1..], b);
      assert Distinct(a) ==> a[0] !in a[1..];
      (if a[0] in b then [a[0]] else []) + rest
  }

  /** The intersection lists the common labels in the order they have in a. */
  lemma {:induction false} IntersectionKeepsOrder(a: seq<Label>, b: seq<Label>)
    requires Distinct(a)
    ensures forall i, j :: 0 <= i < j < |Intersection(a, b)| ==>
      IndexOf(a, Intersection(a, b)[i]) < IndexOf(a, Intersection(a, b)[j])
  {
    if |a| > 0 {
      assert Distinct(a[1..]);
      IntersectionKeepsOrder(a[1..], b);
      forall i, j | 0 <= i < j < |Intersection(a, b)|
        ensures IndexOf(a, Intersection(a, b)[i]) < IndexOf(a, Intersection(a, b)[j])
      {
        IntersectionPairOrder(a, b, i, j);
      }
    }
  }

  /** One step of IntersectionKeepsOrder: a pair of the intersection of a
      keeps its order, given that every pair of the intersection of a's tail does. */
  lemma IntersectionPairOrder(a: seq<Label>, b: seq<Label>, i: nat, j: nat)
    requires Distinct(a) && |a| > 0 && i < j < |Intersection(a, b)|
    requires forall i, j :: 0 <= i < j < |Intersection(a[1..], b)| ==>
      IndexOf(a[1..], Intersection(a[1..], b)[i]) < IndexOf(a[1..], Intersection(a[1..], b)[j])
    ensures IndexOf(a, Intersection(a, b)[i]) < IndexOf(a, Intersection(a, b)[j])
  {
    var r := Intersection(a, b);
    var d := if a[0] in b then 1 else 0;
    if i < d {
      IntersectionEntry(a, b, j);
      IndexOfTail(a, r[j]);
    } else {
      IntersectionEntry(a, b, i);
      IntersectionEntry(a, b, j);
      IndexOfTail(a, r[i]);
      IndexOfTail(a, r[j]);
    }
  }

  /** Past the head (when a's head is common), entry k of the intersection is
      the matching entry of the intersection of a's tail. */
  lemma IntersectionEntry(a: seq<Label>, b: seq<Label>, k: nat)
    requires |a| > 0 && k < |Intersection(a, b)| && (a[0] in b ==> k > 0)
    ensures var d := if a[0] in b then 1 else 0;
      && k - d < |Intersection(a[1..], b)|
      && Intersection(a, b)[k] == Intersection(a[1..], b)[k - d]
      && Intersection(a, b)[k] in a[1..]
  {
    var rest := Intersection(a[1..], b);
    if a[0] in b {
      assert Intersection(a, b) == [a[0]] + rest;
      assert rest[k - 1] in rest;
    } else {
      assert Intersection(a, b) == rest;
      assert rest[k] in rest;
    }
  }

  /** A label of a's tail sits one place further in a than in the tail. */
  lemma IndexOfTail(a: seq<Label>, x: Label)
    requires Distinct(a) && |a| > 0 && x in a[1..]
    ensures IndexOf(a, x) == 1 + IndexOf(a[1..], x)
  {
    assert x != a[0];
  }

  /** When every label of a occurs in b, the intersection is a itself. */
  lemma {:induction false} IntersectionOfSubset(a: seq<Label>, b: seq<Label>)
    requires forall x :: x in a ==> x in b
    ensures Intersection(a, b) == a
  {
    if |a| > 0 {
      IntersectionOfSubset(a[1..], b);
      assert [a[0]] + a[1..] == a;
    }
  }

  /** df[cols]: the columns labelled cols, in that order. */
  function SelectColumns(f: Frame, cols: seq<Label>): (r: Frame)
    requires f.Valid() && Distinct(cols)
    requires forall c :: c in cols ==> c in f.columns
    ensures r.Valid() && r.index == f.index && r.columns == cols
    ensures forall k, j :: 0 <= k < |r.values| && 0 <= j < |cols| ==>
      r.values[k][j] == f.values[k][IndexOf(f.columns, cols[j])]
  {
    Frame(f.index, cols,
      seq(|f.values|, k requires 0 <= k < |f.values| =>
        seq(|cols|, j requires 0 <= j < |cols| => f.values[k][IndexOf(f.columns, cols[j])])))
  }

  /** df.loc[rows]: the rows labelled rows, in that order. */
  function SelectRows(f: Frame, rows: seq<Label>): (r: Frame)
    requires f.Valid() && Distinct(rows)
    requires forall x :: x in rows ==> x in f.index
    ensures r.Valid() && r.index == rows && r.columns == f.columns
    ensures forall k :: 0 <= k < |rows| ==> r.values[k] == f.values[IndexOf(f.index, rows[k])]
  {
    Frame(rows, f.columns, seq(|rows|, k requires 0 <= k < |rows| => f.values[IndexOf(f.index, rows[k])]))
  }

  /** Selecting all columns in their own order gives the frame back. */
  lemma SelectAllColumns(f: Frame)
    requires f.Valid()
    ensures SelectColumns(f, f.columns) == f
  {
    var r := SelectColumns(f, f.columns);
    forall k | 0 <= k < |f.values|
      ensures r.values[k] == f.values[k]
    {
      forall j | 0 <= j < |f.columns|
        ensures r.values[k][j] == f.values[k][j]
      {
        IndexOfDistinct(f.columns, j);
      }
    }
  }

  /** Selecting all rows in their own order gives the frame back. */
  lemma SelectAllRows(f: Frame)
    requires f.Valid()
    ensures SelectRows(f, f.index) == f
  {
    var r := SelectRows(f, f.index);
    forall k | 0 <= k < |f.index|
      ensures r.values[k] == f.values[k]
    {
      IndexOfDistinct(f.index, k);
    }
  }
}

=== FILE: outcomes.dfy ===
/** Error values and a failure-compatible result type shared by every module.
    Each error stands for an exception the repository (or a library it calls)
    raises; the comments name the Python exception. */
module Outcomes {

  datatype Option<T> = None | Some(value: T)

  datatype Error =
    | TypeError                  // PCAEngine.fit given something that is not a DataFrame
    | NotFitted                  // RuntimeError from a PCAEngine accessor before fit
    | FitRejected                // the PCA library refuses the sample's shape
    | FeatureMismatch            // transform given a different number of columns than fit saw
    | EmptySample                // the scaler's transform given no rows or no columns
    | QuantileOutOfRange         // numpy's quantile given a level outside [0, 1]
    | KeyError(key: string)      // column lookup of an absent label
    | IndexError                 // positional access into an empty array
    | UnknownFactor(factor: string)  // ValueError: target factor absent from the loadings
    | InsufficientOverlap        // ValueError: fewer than two common assets
    | EmptyQuantile              // numpy refuses the quantile of an empty list

  datatype Result<T> = Ok(value: T) | Err(error: Error) {

    predicate IsFailure() {
      Err?
    }

    function PropagateFailure<U>(): Result<U>
      requires Err?
    {
      Err(error)
    }

    function Extract(): T
      requires Ok?
    {
      value
    }
  }
}

=== FILE: pca_engine.dfy ===
/** PCAEngine: an unfitted-to-fitted lifecycle around a standardise-then-PCA
    decomposition. The decomposition's numbers are uninterpreted: the model
    keeps the fit sample and asks `Numerics` for loadings, variance ratios and
    projections of that sample. What is modelled exactly is the bookkeeping:
    guards, shapes, labels and which data each answer depends on. */
module PcaEngine {
  import opened Outcomes
  import opened Frames
  import opened FactorNaming

  type Matrix = seq<seq<real>>

  /** The scaler and PCA numerics. Every function receives the fit sample, so
      standardisation parameters are the fit-time ones by construction. */
  datatype Numerics = Numerics(
    loading: (Matrix, nat, nat) -> real,         // components_[j][a] of the fit: asset a in component j
    varianceRatio: (Matrix, nat) -> real,        // explained_variance_ratio_[j]
    project: (Matrix, seq<real>, nat) -> real)   // coordinate j of one raw return row

  datatype State =
    | Unfitted
    | Fitted(columns: seq<Label>, index: seq<Label>, sample: Matrix, components: nat)

  datatype Engine = Engine(nComponents: Option<nat>, numerics: Numerics, state: State)
  {
    predicate IsFitted()
    {
      state.Fitted?
    }

    /** A fitted engine remembers a uniquely-labelled, rectangular sample. */
    predicate Valid()
    {
      state.Fitted? ==>
        && |state.sample| == |state.index|
        && (forall r :: 0 <= r < |state.sample| ==> |state.sample[r]| == |state.columns|)
        && Distinct(state.columns)
        && Distinct(state.index)
    }
  }

  /** What fit is handed: a DataFrame, or any other Python object. */
  datatype Input = DataFrame(frame: Frame) | NotDataFrame

  function Min(a: nat, b: nat): nat
  {
    if a <= b then a else b
  }

  /** PCA(n_components=None) keeps min(n_samples, n_features) components. */
  function ComponentCount(nComponents: Option<nat>, rows: nat, cols: nat): nat
  {
    match nComponents
    case Some(k) => k
    case None => Min(rows, cols)
  }

  /** The library's shape check: at least one sample and one feature, and
      no more components than min(n_samples, n_features). */
  predicate LibraryAccepts(rows: nat, cols: nat, k: nat)
  {
    rows >= 1 && cols >= 1 && k <= Min(rows, cols)
  }

  /** PCAEngine(n_components): a new engine is unfitted. */
  function NewEngine(nComponents: Option<nat>, numerics: Numerics): (e: Engine)
    ensures !e.IsFitted() && e.Valid()
    ensures e.nComponents == nComponents && e.numerics == numerics
  {
    Engine(nComponents, numerics, Unfitted)
  }

  /** fit: rejects a non-DataFrame before touching the state, otherwise records
      the sample, its columns and its index and returns the fitted engine. */
  function Fit(e: Engine, input: Input): (r: Result<Engine>)
    requires input.DataFrame? ==> input.frame.Valid()
    ensures input.NotDataFrame? ==> r == Err(TypeError)
    ensures input.DataFrame? ==>
      (r.Ok? <==> LibraryAccepts(|input.frame.index|, |input.frame.columns|,
                                 ComponentCount(e.nComponents, |input.frame.index|, |input.frame.columns|)))
    ensures r.Err? ==> r.error == TypeError || r.error == FitRejected
    ensures r.Ok? ==>
      && r.value.IsFitted() && r.value.Valid()
      && r.value.state.columns == input.frame.columns
      && r.value.state.index == input.frame.index
      && r.value.state.sample == input.frame.values
      && r.value.state.components == ComponentCount(e.nComponents, |input.frame.index|, |input.frame.columns|)
      && r.value.state.components <= |input.frame.columns|
      && r.value.nComponents == e.nComponents
      && r.value.numerics == e.numerics
  {
    match input
    case NotDataFrame => Err(TypeError)
    case DataFrame(f) =>
      var rows, cols := |f.index|, |f.columns|;
      var k := ComponentCount(e.nComponents, rows, cols);
      if LibraryAccepts(rows, cols, k) then
        Ok(e.(state := Fitted(f.columns, f.index, f.values, k)))
      else
        Err(FitRejected)
  }

  /** transform: projects every row of f with the fit-time parameters; the
      result keeps f's row labels and names its columns PC1..PCk. The engine's
      own guard comes first, then the scaler's input validation (at least one
      row and one column), then its check of the feature count. */
  function Transform(e: Engine, f: Frame): (r: Result<Frame>)
    requires e.Valid() && f.Valid()
    ensures !e.IsFitted() ==> r == Err(NotFitted)
    ensures e.IsFitted() && (|f.index| == 0 || |f.columns| == 0) ==> r == Err(EmptySample)
    ensures r.Ok? <==> e.IsFitted() && |f.index| >= 1 && |f.columns| >= 1 && |f.columns| == |e.state.columns|
    ensures r.Err? ==> r.error == NotFitted || r.error == EmptySample || r.error == FeatureMismatch
    ensures r.Ok? ==>
      && r.value.Valid()
      && r.value.index == f.index
      && r.value.columns == FactorNames(e.state.components)
      && forall t, j :: 0 <= t < |f.index| && 0 <= j < e.state.components ==>
           r.value.values[t][j] == e.numerics.project(e.state.sample, f.values[t], j)
  {
    if !e.IsFitted() then Err(NotFitted)
    else if |f.index| == 0 || |f.columns| == 0 then Err(EmptySample)
    else if |f.columns| != |e.state.columns| then Err(FeatureMismatch)
    else
      var k := e.state.components;
      Ok(Frame(f.index, FactorNames(k),
        seq(|f.values|, t requires 0 <= t < |f.values| =>
          seq(k, j requires 0 <= j < k => e.numerics.project(e.state.sample, f.values[t], j)))))
  }

  /** get_eigen_portfolios: the loadings, one row per fit-time asset and one
      column per factor. */
  function EigenPortfolios(e: Engine): (r: Result<Frame>)
    requires e.Valid()
    ensures r.Ok? <==> e.IsFitted()
    ensures r.Err? ==> r.error == NotFitted
    ensures r.Ok? ==>
      && r.value.Valid()
      && r.value.index == e.state.columns
      && r.value.columns == FactorNames(e.state.components)
      && forall a, j :: 0 <= a < |e.state.columns| && 0 <= j < e.state.components ==>
           r.value.values[a][j] == e.numerics.loading(e.state.sample, a, j)
  {
    if !e.IsFitted() then Err(NotFitted)
    else
      var k, m := e.state.components, |e.state.columns|;
      Ok(Frame(e.state.columns, FactorNames(k),
        seq(m, a requires 0 <= a < m =>
          seq(k, j requires 0 <= j < k => e.numerics.loading(e.state.sample, a, j)))))
  }

  /** explained_variance: one ratio per component, labelled PC1..PCk. */
  function ExplainedVariance(e: Engine): (r: Result<Series>)
    ensures r.Ok? <==> e.IsFitted()
    ensures r.Err? ==> r.error == NotFitted
    ensures r.Ok? ==>
      && r.value.Valid()
      && r.value.index == FactorNames(e.state.components)
      && forall j :: 0 <= j < e.state.components ==>
           r.value.values[j] == e.numerics.varianceRatio(e.state.sample, j)
  {
    if !e.IsFitted() then Err(NotFitted)
    else
      var k := e.state.components;
      Ok(Series(FactorNames(k), seq(k, j requires 0 <= j < k => e.numerics.varianceRatio(e.state.sample, j))))
  }

  /** Before fit, every accessor raises. */
  lemma AccessorsRequireFit(e: Engine, f: Frame)
    requires e.Valid() && f.Valid() && !e.IsFitted()
    ensures Transform(e, f) == Err(NotFitted)
    ensures EigenPortfolios(e) == Err(NotFitted)
    ensures ExplainedVariance(e) == Err(NotFitted)
  {
  }

  /** After a successful fit on f, every accessor answers, and transforming f
      itself gives one factor row per row of f. */
  lemma FitEnablesAccessors(e: Engine, f: Frame)
    requires f.Valid() && Fit(e, DataFrame(f)).Ok?
    ensures Transform(Fit(e, DataFrame(f)).value, f).Ok?
    ensures EigenPortfolios(Fit(e, DataFrame(f)).value).Ok?
    ensures ExplainedVariance(Fit(e, DataFrame(f)).value).Ok?
    ensures |Transform(Fit(e, DataFrame(f)).value, f).value.index| == |f.index|
  {
  }

  /** Refitting does not depend on what the engine saw before: fitting two
      engines with the same settings on the same frame gives the same engine. */
  lemma FitForgetsPreviousState(e1: Engine, e2: Engine, f: Frame)
    requires f.Valid()
    requires e1.nComponents == e2.nComponents && e1.numerics == e2.numerics
    ensures Fit(e1, DataFrame(f)) == Fit(e2, DataFrame(f))
  {
  }

  /** Transform works row by row with the fit-time parameters: transforming a
      block of rows gives the matching block of the full transform. A transform
      that re-estimated the scaling on its input would not have this property.
      The block must hold a row: the scaler refuses an empty one. */
  lemma TransformIsRowwise(e: Engine, f: Frame, lo: nat, hi: nat)
    requires e.Valid() && f.Valid() && lo < hi <= |f.index|
    requires Transform(e, f).Ok?
    ensures Transform(e, RowSlice(f, lo, hi)).Ok?
    ensures Transform(e, RowSlice(f, lo, hi)).value.values == Transform(e, f).value.values[lo..hi]
  {
    var whole := Transform(e, f).value;
    var part := Transform(e, RowSlice(f, lo, hi)).value;
    forall t | 0 <= t < hi - lo
      ensures part.values[t] == whole.values[lo + t]
    {
    }
  }
}

=== FILE: portfolio_engine.dfy ===
/** PortfolioEngine: validates a returns frame against a loadings frame,
    restricts both to their common assets, and turns the target factor's
    loadings into weights normalised by their L1 norm. */
module PortfolioEngine {
  import opened Outcomes
  import opened Frames
  import opened Vectors

  /** The engine after `_check_inputs`: returns (dates x assets) and loadings
      (assets x factors) cover the same assets in the same order. */
  datatype Portfolio = Portfolio(assetReturns: Frame, loadings: Frame, target: Label)
  {
    predicate Valid()
    {
      && assetReturns.Valid()
      && loadings.Valid()
      && assetReturns.columns == loadings.index
      && target in loadings.columns
      && |assetReturns.columns| >= 2
    }
  }

  /** returns.columns.intersection(loadings.index). */
  function CommonAssets(assetReturns: Frame, loadings: Frame): seq<Label>
  {
    Intersection(assetReturns.columns, loadings.index)
  }

  /** The common assets are exactly the assets in both frames, without
      repetition, in the order of the returns' columns. */
  lemma CommonAssetsInReturnOrder(assetReturns: Frame, loadings: Frame)
    requires assetReturns.Valid()
    ensures forall x :: x in CommonAssets(assetReturns, loadings) <==> x in assetReturns.columns && x in loadings.index
    ensures Distinct(CommonAssets(assetReturns, loadings))
    ensures forall i, j :: 0 <= i < j < |CommonAssets(assetReturns, loadings)| ==>
      IndexOf(assetReturns.columns, CommonAssets(assetReturns, loadings)[i]) < IndexOf(assetReturns.columns, CommonAssets(assetReturns, loadings)[j])
  {
    IntersectionKeepsOrder(assetReturns.columns, loadings.index);
  }

  /** PortfolioEngine(returns, loadings, target_factor): the target must be a
      loadings column and at least two assets must be common; then both frames
      are restricted to the common assets. Frames are values, so the caller's
      inputs are never altered. */
  function NewPortfolio(assetReturns: Frame, loadings: Frame, target: Label): (r: Result<Portfolio>)
    requires assetReturns.Valid() && loadings.Valid()
    ensures target !in loadings.columns ==> r == Err(UnknownFactor(target))
    ensures target in loadings.columns ==>
      (r.Ok? <==> |CommonAssets(assetReturns, loadings)| >= 2)
    ensures target in loadings.columns && r.Err? ==> r.error == InsufficientOverlap
    ensures r.Ok? ==>
      var common := CommonAssets(assetReturns, loadings);
      && r.value.Valid()
      && r.value.target == target
      && r.value.assetReturns.index == assetReturns.index
      && r.value.assetReturns.columns == common
      && r.value.loadings.index == common
      && r.value.loadings.columns == loadings.columns
      && (forall t, j :: 0 <= t < |assetReturns.index| && 0 <= j < |common| ==>
            r.value.assetReturns.values[t][j] == assetReturns.values[t][IndexOf(assetReturns.columns, common[j])])
      && (forall j :: 0 <= j < |common| ==>
            r.value.loadings.values[j] == loadings.values[IndexOf(loadings.index, common[j])])
  {
    if target !in loadings.columns then
      Err(UnknownFactor(target))
    else
      var common := CommonAssets(assetReturns, loadings);
      if |common| < 2 then
        Err(InsufficientOverlap)
      else
        Ok(Portfolio(SelectColumns(assetReturns, common), SelectRows(loadings, common), target))
  }

  /** loadings[target_factor]: one loading per asset. */
  function Exposure(p: Portfolio): (e: seq<real>)
    requires p.Valid()
    ensures |e| == |p.assetReturns.columns|
    ensures forall a :: 0 <= a < |e| ==> e[a] == p.loadings.values[a][IndexOf(p.loadings.columns, p.target)]
  {
    Column(p.loadings, p.target).value
  }

  /** factor_exposure / factor_exposure.abs().sum(). The code has no guard
      against an all-zero exposure, so a non-zero L1 norm is required. */
  function Weights(p: Portfolio): (w: seq<real>)
    requires p.Valid() && AbsSum(Exposure(p)) != 0.0
    ensures |w| == |p.assetReturns.columns|
    ensures AbsSum(w) == 1.0
    ensures forall a :: 0 <= a < |w| ==>
      (w[a] > 0.0 <==> Exposure(p)[a] > 0.0) && (w[a] < 0.0 <==> Exposure(p)[a] < 0.0)
    ensures forall a, b :: 0 <= a < |w| && 0 <= b < |w| ==>
      w[a] * Exposure(p)[b] == w[b] * Exposure(p)[a]
  {
    var e := Exposure(p);
    var s := AbsSum(e);
    AbsSumNonNegative(e);
    var w := seq(|e|, a requires 0 <= a < |e| => e[a] / s);
    NormalisedBy(w, e, s);
    w
  }

  /** Dividing by a positive norm gives unit norm, keeps every sign and keeps
      every ratio between entries. */
  lemma NormalisedBy(w: seq<real>, e: seq<real>, s: real)
    requires s > 0.0 && s == AbsSum(e)
    requires |w| == |e| && forall a :: 0 <= a < |e| ==> w[a] == e[a] / s
    ensures AbsSum(w) == 1.0
    ensures forall a :: 0 <= a < |w| ==> (w[a] > 0.0 <==> e[a] > 0.0) && (w[a] < 0.0 <==> e[a] < 0.0)
    ensures forall a, b :: 0 <= a < |w| && 0 <= b < |w| ==> w[a] * e[b] == w[b] * e[a]
  {
    assert AbsSum(w) == 1.0 by {
      DivisionIsScalingAll(w, e, s);
      InverseTimes(s);
      UnitNorm(w, e, 1.0 / s);
    }
    assert forall a :: 0 <= a < |w| ==> (w[a] > 0.0 <==> e[a] > 0.0) && (w[a] < 0.0 <==> e[a] < 0.0) by {
      SignsKept(w, e, s);
    }
    assert forall a, b :: 0 <= a < |w| && 0 <= b < |w| ==> w[a] * e[b] == w[b] * e[a] by {
      RatiosKept(w, e, s);
    }
  }

  lemma SignsKept(w: seq<real>, e: seq<real>, s: real)
    requires s > 0.0
    requires |w| == |e| && forall a :: 0 <= a < |e| ==> w[a] == e[a] / s
    ensures forall a :: 0 <= a < |w| ==> (w[a] > 0.0 <==> e[a] > 0.0) && (w[a] < 0.0 <==> e[a] < 0.0)
  {
    forall a | 0 <= a < |w|
      ensures (w[a] > 0.0 <==> e[a] > 0.0) && (w[a] < 0.0 <==> e[a] < 0.0)
    {
      DivisionKeepsSign(e[a], s);
    }
  }

  lemma RatiosKept(w: seq<real>, e: seq<real>, s: real)
    requires s > 0.0
    requires |w| == |e| && forall a :: 0 <= a < |e| ==> w[a] == e[a] / s
    ensures forall a, b :: 0 <= a < |w| && 0 <= b < |w| ==> w[a] * e[b] == w[b] * e[a]
  {
    forall a, b | 0 <= a < |w| && 0 <= b < |w|
      ensures w[a] * e[b] == w[b] * e[a]
    {
      DivisionKeepsRatio(e[a], e[b], s);
    }
  }

  lemma UnitNorm(w: seq<real>, e: seq<real>, c: real)
    requires c >= 0.0 && c * AbsSum(e) == 1.0 && ScaledBy(w, c, e)
    ensures AbsSum(w) == 1.0
  {
    AbsSumScaled(w, c, e);
  }

  lemma DivisionKeepsSign(x: real, s: real)
    requires s > 0.0
    ensures (x / s > 0.0 <==> x > 0.0) && (x / s < 0.0 <==> x < 0.0)
  {
  }

  lemma DivisionKeepsRatio(x: real, y: real, s: real)
    requires s != 0.0
    ensures (x / s) * y == (y / s) * x
  {
  }

  /** build_market_neutral_weights: the weight row repeated once per return
      date, with the returns' dates and assets as labels. */
  function BuildWeights(p: Portfolio): (r: Frame)
    requires p.Valid() && AbsSum(Exposure(p)) != 0.0
    ensures r.Valid()
    ensures r.index == p.assetReturns.index && r.columns == p.assetReturns.columns
    ensures forall t :: 0 <= t < |r.index| ==> r.values[t] == Weights(p) && AbsSum(r.values[t]) == 1.0
    ensures forall t, u :: 0 <= t < |r.index| && 0 <= u < |r.index| ==> r.values[t] == r.values[u]
  {
    var w := Weights(p);
    Frame(p.assetReturns.index, p.assetReturns.columns, seq(|p.assetReturns.index|, t requires 0 <= t < |p.assetReturns.index| => w))
  }

  /** compute_portfolio_returns: per date, the sum over assets of weight times
      return, for a weight table labelled like the engine's returns. */
  function PortfolioReturns(p: Portfolio, weights: Frame): (r: Series)
    requires p.Valid() && weights.Valid()
    requires weights.index == p.assetReturns.index && weights.columns == p.assetReturns.columns
    ensures r.Valid() && r.index == p.assetReturns.index
    ensures forall t :: 0 <= t < |r.index| ==> r.values[t] == Dot(weights.values[t], p.assetReturns.values[t])
  {
    Series(p.assetReturns.index,
      seq(|p.assetReturns.index|, t requires 0 <= t < |p.assetReturns.index| => Dot(weights.values[t], p.assetReturns.values[t])))
  }

  /** Scaling the weight table by c scales every portfolio return by c. */
  lemma PortfolioReturnsScale(p: Portfolio, weights: Frame, scaled: Frame, c: real)
    requires p.Valid() && weights.Valid() && scaled.Valid()
    requires weights.index == p.assetReturns.index && weights.columns == p.assetReturns.columns
    requires scaled.index == weights.index && scaled.columns == weights.columns
    requires forall t :: 0 <= t < |weights.index| ==> ScaledBy(scaled.values[t], c, weights.values[t])
    ensures forall t :: 0 <= t < |p.assetReturns.index| ==>
      PortfolioReturns(p, scaled).values[t] == c * PortfolioReturns(p, weights).values[t]
  {
    forall t | 0 <= t < |p.assetReturns.index|
      ensures PortfolioReturns(p, scaled).values[t] == c * PortfolioReturns(p, weights).values[t]
    {
      DotScaled(scaled.values[t], c, weights.values[t], p.assetReturns.values[t]);
    }
  }
}

=== FILE: regions.dfy ===
/** contiguous_regions: a boolean series turned into the end-exclusive
    positional intervals of its maximal True runs.

    The code reads condition[0] unconditionally, so an empty series fails with
    an index error. Otherwise it takes np.diff of the series as integers, the
    positions of the non-zero differences plus one, prepends 0 when the series
    starts True, appends its size when it ends True, and reshapes that list
    into (start, end) pairs.

    The proofs view every boundary as a "flip": a position i in [0, size] at
    which the value differs from the value just before it, reading positions
    outside the series as False. */
module Regions {
  import opened Outcomes

  /** One (start, end) row of the result: the run is [start, end). */
  datatype Span = Span(start: nat, end: nat)

  function AsInt(b: bool): int
  {
    if b then 1 else 0
  }

  /** np.diff(condition.astype(int)). */
  function Diff(c: seq<bool>): (d: seq<int>)
    requires |c| >= 1
    ensures |d| == |c| - 1
  {
    seq(|c| - 1, i requires 0 <= i < |c| - 1 => AsInt(c[i + 1]) - AsInt(c[i]))
  }

  /** d.nonzero() followed by idx += 1, over the first m differences. */
  function NonZeroPlusOne(d: seq<int>, m: nat): seq<nat>
    requires m <= |d|
  {
    if m == 0 then [] else NonZeroPlusOne(d, m - 1) + (if d[m - 1] != 0 then [m] else [])
  }

  /** The flat list of boundaries before the reshape. */
  function Boundaries(c: seq<bool>): seq<nat>
    requires |c| >= 1
  {
    (if c[0] then [0] else []) + NonZeroPlusOne(Diff(c), |c| - 1) + (if c[|c| - 1] then [|c|] else [])
  }

  /** idx.shape = (-1, 2): consecutive boundaries paired up. */
  function Reshape(b: seq<nat>): (spans: seq<Span>)
    requires |b| % 2 == 0
    ensures |spans| == |b| / 2
  {
    seq(|b| / 2, k requires 0 <= k < |b| / 2 => Span(b[2 * k], b[2 * k + 1]))
  }

  /** The value at position i, False outside the series. */
  function At(c: seq<bool>, i: int): bool
  {
    0 <= i < |c| && c[i]
  }

  /** Position i starts or ends a run. */
  predicate Flip(c: seq<bool>, i: int)
  {
    At(c, i) != At(c, i - 1)
  }

  /** The flips at positions [0, m), in increasing order. */
  function Flips(c: seq<bool>, m: nat): seq<nat>
  {
    if m == 0 then [] else Flips(c, m - 1) + (if Flip(c, m - 1) then [m - 1] else [])
  }

  /** The number of maximal True runs starting in [0, m). */
  function RunStarts(c: seq<bool>, m: nat): nat
  {
    if m == 0 then 0 else RunStarts(c, m - 1) + (if At(c, m - 1) && !At(c, m - 2) then 1 else 0)
  }

  /** Flips(c, m) holds exactly the flips below m. */
  lemma {:induction false} FlipsMembers(c: seq<bool>, m: nat)
    ensures forall i :: i in Flips(c, m) <==> 0 <= i < m && Flip(c, i)
  {
    if m > 0 {
      FlipsMembers(c, m - 1);
    }
  }

  /** Flips(c, m) is strictly increasing. */
  lemma {:induction false} FlipsIncreasing(c: seq<bool>, m: nat)
    ensures forall k :: 0 <= k < |Flips(c, m)| ==> Flips(c, m)[k] < m
    ensures forall k, l :: 0 <= k < l < |Flips(c, m)| ==> Flips(c, m)[k] < Flips(c, m)[l]
    ensures forall k, l :: 0 <= k <= l < |Flips(c, m)| ==> Flips(c, m)[k] <= Flips(c, m)[l]
  {
    if m > 0 {
      FlipsIncreasing(c, m - 1);
    }
  }

  /** The flips below p are a prefix of the flips below m, and the rest are
      at least p. */
  lemma {:induction false} FlipsPrefix(c: seq<bool>, p: nat, m: nat)
    requires p <= m
    ensures |Flips(c, p)| <= |Flips(c, m)|
    ensures Flips(c, m)[..|Flips(c, p)|] == Flips(c, p)
    ensures forall k :: |Flips(c, p)| <= k < |Flips(c, m)| ==> Flips(c, m)[k] >= p
  {
    if p < m {
      FlipsPrefix(c, p, m - 1);
      FlipsIncreasing(c, m - 1);
      assert Flips(c, m)[..|Flips(c, m - 1)|] == Flips(c, m - 1);
    }
  }

  /** Position m - 1 is True exactly when an odd number of flips lie below m. */
  lemma {:induction false} FlipParity(c: seq<bool>, m: nat)
    ensures At(c, m - 1) <==> |Flips(c, m)| % 2 == 1
  {
    if m > 0 {
      FlipParity(c, m - 1);
    }
  }

  /** Every other flip starts a run. */
  lemma {:induction false} RunStartsCountFlips(c: seq<bool>, m: nat)
    ensures RunStarts(c, m) == (|Flips(c, m)| + 1) / 2
  {
    if m > 0 {
      RunStartsCountFlips(c, m - 1);
      FlipParity(c, m - 1);
    }
  }

  /** Before the reshape, the code's boundaries are exactly the flips in
      [0, size]. */
  lemma BoundariesAreFlips(c: seq<bool>)
    requires |c| >= 1
    ensures Boundaries(c) == Flips(c, |c| + 1)
  {
    ChangesAreFlips(c, |c| - 1);
    assert Flips(c, |c| + 1) == Flips(c, |c|) + (if c[|c| - 1] then [|c|] else []);
  }

  lemma {:induction false} ChangesAreFlips(c: seq<bool>, m: nat)
    requires m < |c|
    ensures Flips(c, m + 1) == (if c[0] then [0] else []) + NonZeroPlusOne(Diff(c), m)
  {
    if m > 0 {
      ChangesAreFlips(c, m - 1);
      assert Flip(c, m) <==> Diff(c)[m - 1] != 0;
    }
  }

  /** There is an even number of boundaries, so the reshape never fails. */
  lemma EvenBoundaries(c: seq<bool>)
    requires |c| >= 1
    ensures |Boundaries(c)| % 2 == 0
  {
    BoundariesAreFlips(c);
    FlipParity(c, |c| + 1);
  }

  /** contiguous_regions(condition). */
  function ContiguousRegions(c: seq<bool>): (r: Result<seq<Span>>)
    ensures |c| == 0 <==> r == Err(IndexError)
  {
    if |c| == 0 then Err(IndexError)
    else
      EvenBoundaries(c);
      Ok(Reshape(Boundaries(c)))
  }

  /** Span k of the result is the pair of flips 2k and 2k + 1. */
  lemma SpansAreFlipPairs(c: seq<bool>)
    requires |c| >= 1
    ensures
      var spans := ContiguousRegions(c).value;
      var f := Flips(c, |c| + 1);
      && |f| == 2 * |spans|
      && forall k :: 0 <= k < |spans| ==> spans[k] == Span(f[2 * k], f[2 * k + 1])
  {
    BoundariesAreFlips(c);
    EvenBoundaries(c);
  }

  /** Span k of the result, read off the flips. */
  lemma SpanIsFlipPair(c: seq<bool>, k: nat)
    requires |c| >= 1 && k < |ContiguousRegions(c).value|
    ensures 2 * k + 1 < |Flips(c, |c| + 1)|
    ensures ContiguousRegions(c).value[k] == Span(Flips(c, |c| + 1)[2 * k], Flips(c, |c| + 1)[2 * k + 1])
  {
    SpansAreFlipPairs(c);
  }

  /** Every position inside a returned interval is True. */
  lemma InsideIsTrue(c: seq<bool>, k: nat, i: nat)
    requires |c| >= 1 && k < |ContiguousRegions(c).value|
    requires ContiguousRegions(c).value[k].start <= i < ContiguousRegions(c).value[k].end
    ensures i < |c| && c[i]
  {
    SpanIsFlipPair(c, k);
    var n := |c| + 1;
    FlipsAt(c, n, n, 2 * k + 1);
    FlipsAt(c, i + 1, n, 2 * k);
    FlipsAt(c, i + 1, n, 2 * k + 1);
    assert |Flips(c, i + 1)| == 2 * k + 1;
    FlipParity(c, i + 1);
  }

  /** Every entry of Flips(c, m) is a flip. */
  lemma FlipsAreFlips(c: seq<bool>, m: nat, k: nat)
    requires k < |Flips(c, m)|
    ensures Flip(c, Flips(c, m)[k])
  {
    FlipsMembers(c, m);
    assert Flips(c, m)[k] in Flips(c, m);
  }

  /** Entries of Flips(c, m) at increasing positions increase strictly. */
  lemma FlipsOrder(c: seq<bool>, m: nat, k: nat, l: nat)
    requires k < l < |Flips(c, m)|
    ensures Flips(c, m)[k] < Flips(c, m)[l]
  {
    FlipsIncreasing(c, m);
  }

  /** Entry k of the flips below m, seen from the flips below p <= m: it is
      entry k of those when k is in range, and at least p otherwise. */
  lemma FlipsAt(c: seq<bool>, p: nat, m: nat, k: nat)
    requires p <= m && k < |Flips(c, m)|
    ensures k < |Flips(c, p)| ==> Flips(c, m)[k] == Flips(c, p)[k] < p
    ensures |Flips(c, p)| <= k ==> Flips(c, m)[k] >= p
  {
    FlipsPrefix(c, p, m);
    FlipsIncreasing(c, p);
    if k < |Flips(c, p)| {
      assert Flips(c, m)[..|Flips(c, p)|][k] == Flips(c, m)[k];
    }
  }

  /** Every True position lies in a returned interval. */
  lemma TrueIsInside(c: seq<bool>, i: nat)
    requires i < |c| && c[i]
    ensures
      var spans := ContiguousRegions(c).value;
      exists k :: 0 <= k < |spans| && spans[k].start <= i < spans[k].end
  {
    SpansAreFlipPairs(c);
    var spans := ContiguousRegions(c).value;
    var f := Flips(c, |c| + 1);
    FlipsPrefix(c, i + 1, |c| + 1);
    FlipsIncreasing(c, i + 1);
    FlipParity(c, i + 1);
    FlipParity(c, |c| + 1);
    var j := |Flips(c, i + 1)|;
    assert f[j - 1] == Flips(c, i + 1)[j - 1];
    var k := (j - 1) / 2;
    assert spans[k].start <= i < spans[k].end;
  }

  /** The intervals are non-empty, lie within the series, and are strictly
      ordered with a gap between consecutive ones. */
  lemma SpansOrdered(c: seq<bool>)
    requires |c| >= 1
    ensures
      var spans := ContiguousRegions(c).value;
      && (forall k :: 0 <= k < |spans| ==> spans[k].start < spans[k].end <= |c|)
      && (forall k :: 0 <= k < |spans| - 1 ==> spans[k].end < spans[k + 1].start)
  {
    SpansAreFlipPairs(c);
    FlipsIncreasing(c, |c| + 1);
    var spans := ContiguousRegions(c).value;
    var f := Flips(c, |c| + 1);
    forall k | 0 <= k < |spans| - 1
      ensures spans[k].end < spans[k + 1].start
    {
      assert spans[k].end == f[2 * k + 1] && spans[k + 1].start == f[2 * k + 2];
    }
  }

  /** Every returned interval is a maximal run: it cannot be extended to the
      left or to the right. */
  lemma SpansMaximal(c: seq<bool>, k: nat)
    requires |c| >= 1 && k < |ContiguousRegions(c).value|
    ensures ContiguousRegions(c).value[k].start < ContiguousRegions(c).value[k].end <= |c|
    ensures
      var s := ContiguousRegions(c).value[k];
      && (s.start == 0 || !c[s.start - 1])
      && (s.end == |c| || !c[s.end])
  {
    SpanIsFlipPair(c, k);
    var n := |c| + 1;
    var s := ContiguousRegions(c).value[k];
    FlipsOrder(c, n, 2 * k, 2 * k + 1);
    FlipsAt(c, n, n, 2 * k + 1);
    FlipsAreFlips(c, n, 2 * k);
    FlipsAreFlips(c, n, 2 * k + 1);
    InsideIsTrue(c, k, s.start);
    InsideIsTrue(c, k, s.end - 1);
  }

  /** A True position lies in exactly one returned interval. */
  lemma InsideExactlyOne(c: seq<bool>, i: nat, k: nat, l: nat)
    requires |c| >= 1
    requires k < |ContiguousRegions(c).value| && l < |ContiguousRegions(c).value|
    requires ContiguousRegions(c).value[k].start <= i < ContiguousRegions(c).value[k].end
    requires ContiguousRegions(c).value[l].start <= i < ContiguousRegions(c).value[l].end
    ensures k == l
  {
    SpansAreFlipPairs(c);
    FlipsIncreasing(c, |c| + 1);
  }

  /** One interval per maximal True run. */
  lemma SpanCountIsRunCount(c: seq<bool>)
    requires |c| >= 1
    ensures |ContiguousRegions(c).value| == RunStarts(c, |c|)
  {
    SpansAreFlipPairs(c);
    FlipParity(c, |c| + 1);
    RunStartsCountFlips(c, |c| + 1);
  }

  /** An all-False series has no run. */
  lemma AllFalseNoSpans(c: seq<bool>)
    requires |c| >= 1 && forall i :: 0 <= i < |c| ==> !c[i]
    ensures ContiguousRegions(c) == Ok([])
  {
    if |ContiguousRegions(c).value| > 0 {
      SpansOrdered(c);
      InsideIsTrue(c, 0, ContiguousRegions(c).value[0].start);
    }
  }

  /** An all-True series is a single run covering it. */
  lemma AllTrueOneSpan(c: seq<bool>)
    requires |c| >= 1 && forall i :: 0 <= i < |c| ==> c[i]
    ensures ContiguousRegions(c) == Ok([Span(0, |c|)])
  {
    var spans := ContiguousRegions(c).value;
    TrueIsInside(c, 0);
    SpansOrdered(c);
    SpansMaximal(c, 0);
    assert spans[0].start == 0;
    assert spans[0].end == |c|;
    var last := |spans| - 1;
    SpansMaximal(c, last);
    assert spans[last].start == 0;
    InsideExactlyOne(c, 0, 0, last);
    assert spans == [Span(0, |c|)];
  }
}

=== FILE: rolling_backtest.dfy ===
/** RollingPCABacktest.run: a two-pass walk-forward loop.

    Pass 1 fits the PCA on every trailing window [t - window, t) for t in
    [window, len) and records the standard deviation of the first factor.
    One threshold, a quantile of that whole list, is then fixed. Pass 2, for t
    in [window, len - 1), refits on the same window, builds the target-factor
    weights, scales them by risk_scale_high_vol when the window's first-factor
    volatility is strictly above the threshold, and scores them against row
    t + 1. All outputs are labelled with dates[window + 1:].

    pandas' std and numpy's quantile are parameters (`Statistics`); the PCA
    numerics are the engine's `Numerics`. */
module RollingBacktest {
  import opened Outcomes
  import opened Frames
  import opened Vectors
  import opened FactorNaming
  import opened PcaEngine
  import opened PortfolioEngine

  /** The constructor's settings (window, n_components, target_factor,
      risk_scale_high_vol, vol_threshold_quantile). */
  datatype Config = Config(
    window: nat,
    nComponents: nat,
    target: Label,
    riskScaleHighVol: real,
    volThresholdQuantile: real)

  /** Series.std and np.quantile, left uninterpreted. */
  datatype Statistics = Statistics(std: seq<real> -> real, quantile: (seq<real>, real) -> real)

  /** The three series get_results returns, plus the threshold used. */
  datatype BacktestResult = BacktestResult(
    portfolioReturns: Series,
    weightsHistory: Frame,
    pc1VolSeries: Series,
    volThreshold: real)

  /** What one pass-2 iteration appends. */
  datatype Step = Step(weights: seq<real>, portfolioReturn: real)

  /** returns.iloc[t - window : t]: the in-sample rows of step t. */
  function InSample(r: Frame, window: nat, t: nat): (s: Frame)
    requires r.Valid() && window <= t <= |r.index|
    ensures s.Valid() && s.columns == r.columns
    ensures |s.index| == window && s.values == r.values[t - window..t]
  {
    RowSlice(r, t - window, t)
  }

  /** PCAEngine(n_components).fit(in_sample). */
  function WindowFit(r: Frame, cfg: Config, lib: Numerics, t: nat): Result<Engine>
    requires r.Valid() && cfg.window <= t <= |r.index|
  {
    Fit(NewEngine(Some(cfg.nComponents), lib), DataFrame(InSample(r, cfg.window, t)))
  }

  /** The first-factor coordinates of the window's own rows, under the fit on
      that window. */
  function LeadingFactorSeries(r: Frame, cfg: Config, lib: Numerics, t: nat): seq<real>
    requires r.Valid() && cfg.window <= t <= |r.index|
  {
    var sample := InSample(r, cfg.window, t).values;
    seq(cfg.window, i requires 0 <= i < cfg.window => lib.project(sample, sample[i], 0))
  }

  /** The fitted loadings of the target factor, one per asset. */
  function TargetLoadings(r: Frame, cfg: Config, lib: Numerics, t: nat): seq<real>
    requires r.Valid() && cfg.window <= t <= |r.index|
    requires cfg.target in FactorNames(cfg.nComponents)
  {
    var sample := InSample(r, cfg.window, t).values;
    var j := IndexOf(FactorNames(cfg.nComponents), cfg.target);
    seq(|r.columns|, a requires 0 <= a < |r.columns| => lib.loading(sample, a, j))
  }

  /** A step reaches the weight normalisation: the window fits, the target
      factor is kept and at least two assets are held. */
  predicate DividesByNorm(r: Frame, cfg: Config)
  {
    && LibraryAccepts(cfg.window, |r.columns|, cfg.nComponents)
    && cfg.target in FactorNames(cfg.nComponents)
    && |r.columns| >= 2
  }

  /** The code divides by the target loadings' L1 norm without a guard; this
      is the assumption that the norm is non-zero for the window ending at t,
      made only where the division is reached. */
  predicate TargetExposed(r: Frame, cfg: Config, lib: Numerics, t: nat)
    requires r.Valid() && cfg.window <= t <= |r.index|
  {
    DividesByNorm(r, cfg) ==> AbsSum(TargetLoadings(r, cfg, lib, t)) != 0.0
  }

  /** The first-factor volatility of the window ending before t: the
      library's rejection of the window's shape, a missing first factor when
      no component is kept, or the standard deviation of the window's
      first-factor coordinates. */
  function Pc1Volatility(r: Frame, cfg: Config, lib: Numerics, stats: Statistics, t: nat): (v: Result<real>)
    requires r.Valid() && cfg.window <= t <= |r.index|
  {
    if !LibraryAccepts(cfg.window, |r.columns|, cfg.nComponents) then Err(FitRejected)
    else if cfg.nComponents == 0 then Err(KeyError("PC1"))
    else Ok(stats.std(LeadingFactorSeries(r, cfg, lib, t)))
  }

  /** What the loop body computes for pass 1: PCAEngine(n_components) fitted
      on the window, the window transformed, and factors["PC1"].std(). */
  function EngineVolatility(r: Frame, cfg: Config, lib: Numerics, stats: Statistics, t: nat): (v: Result<real>)
    requires r.Valid() && cfg.window <= t <= |r.index|
    ensures v.Ok? <==> LibraryAccepts(cfg.window, |r.columns|, cfg.nComponents) && cfg.nComponents >= 1
    ensures v.Err? ==> v.error == FitRejected || v.error == KeyError("PC1")
  {
    var fit :- WindowFit(r, cfg, lib, t);
    LeadingFactorPosition(cfg.nComponents);
    var factors := Transform(fit, InSample(r, cfg.window, t)).value;
    var pc1 :- Column(factors, "PC1");
    Ok(stats.std(pc1))
  }

  /** The engine pipeline yields exactly Pc1Volatility: the fit fails only on
      the shape, and "PC1" is a factor column exactly when at least one
      component is kept, in which case it holds the window's first-factor
      coordinates. */
  lemma EngineVolatilityIsPc1Volatility(r: Frame, cfg: Config, lib: Numerics, stats: Statistics, t: nat)
    requires r.Valid() && cfg.window <= t <= |r.index|
    ensures EngineVolatility(r, cfg, lib, stats, t) == Pc1Volatility(r, cfg, lib, stats, t)
  {
    var fit := WindowFit(r, cfg, lib, t);
    if fit.Ok? {
      var factors := Transform(fit.value, InSample(r, cfg.window, t)).value;
      LeadingFactorPosition(cfg.nComponents);
      var pc1 := Column(factors, "PC1");
      if pc1.Ok? {
        assert pc1.value == LeadingFactorSeries(r, cfg, lib, t);
      }
    }
  }

  /** Inside a step, the portfolio engine is built from the window and the
      loadings fitted on it. Since the loadings are indexed by the window's own
      columns, the common assets are all of them, in the same order, and the
      exposure is the target loadings column. */
  lemma WindowPortfolio(r: Frame, cfg: Config, lib: Numerics, t: nat)
    requires r.Valid() && cfg.window <= t <= |r.index|
    requires WindowFit(r, cfg, lib, t).Ok?
    ensures EigenPortfolios(WindowFit(r, cfg, lib, t).value).Ok?
    ensures
      var loadings := EigenPortfolios(WindowFit(r, cfg, lib, t).value).value;
      var p := NewPortfolio(InSample(r, cfg.window, t), loadings, cfg.target);
      && (p.Ok? <==> cfg.target in FactorNames(cfg.nComponents) && |r.columns| >= 2)
      && (cfg.target !in FactorNames(cfg.nComponents) ==> p == Err(UnknownFactor(cfg.target)))
      && (cfg.target in FactorNames(cfg.nComponents) && |r.columns| < 2 ==> p == Err(InsufficientOverlap))
      && (p.Ok? ==> p.value.Valid() && Exposure(p.value) == TargetLoadings(r, cfg, lib, t))
  {
    var sample := InSample(r, cfg.window, t);
    var engine := WindowFit(r, cfg, lib, t).value;
    var loadings := EigenPortfolios(engine).value;
    IntersectionOfSubset(sample.columns, loadings.index);
    var p := NewPortfolio(sample, loadings, cfg.target);
    if p.Ok? {
      SelectAllRows(loadings);
      assert p.value.loadings == loadings;
      var e := Exposure(p.value);
      var j := IndexOf(FactorNames(cfg.nComponents), cfg.target);
      forall a | 0 <= a < |e|
        ensures e[a] == TargetLoadings(r, cfg, lib, t)[a]
      {
        assert e[a] == loadings.values[a][j];
      }
    }
  }

  /** The unscaled weights of the window ending before t: the library's
      rejection, an unknown target factor or too few assets, or else the
      target loadings divided by their L1 norm. */
  function BaseWeights(r: Frame, cfg: Config, lib: Numerics, t: nat): (b: Result<seq<real>>)
    requires r.Valid() && cfg.window <= t <= |r.index|
    requires TargetExposed(r, cfg, lib, t)
  {
    if !LibraryAccepts(cfg.window, |r.columns|, cfg.nComponents) then Err(FitRejected)
    else if cfg.target !in FactorNames(cfg.nComponents) then Err(UnknownFactor(cfg.target))
    else if |r.columns| < 2 then Err(InsufficientOverlap)
    else
      var e := TargetLoadings(r, cfg, lib, t);
      TargetNormPositive(r, cfg, lib, t);
      Ok(seq(|e|, a requires 0 <= a < |e| => e[a] / AbsSum(e)))
  }

  /** Under TargetExposed the target loadings have a positive L1 norm. */
  lemma TargetNormPositive(r: Frame, cfg: Config, lib: Numerics, t: nat)
    requires r.Valid() && cfg.window <= t <= |r.index|
    requires TargetExposed(r, cfg, lib, t) && DividesByNorm(r, cfg)
    ensures AbsSum(TargetLoadings(r, cfg, lib, t)) > 0.0
  {
    AbsSumNonNegative(TargetLoadings(r, cfg, lib, t));
  }

  /** What the loop body computes for pass 2's weights: the window's fit, its
      eigen-portfolios, a PortfolioEngine on the window and those loadings,
      and the first row of build_market_neutral_weights(). */
  function EngineWeights(r: Frame, cfg: Config, lib: Numerics, t: nat): (w: Result<seq<real>>)
    requires r.Valid() && cfg.window <= t <= |r.index|
    requires TargetExposed(r, cfg, lib, t)
    ensures w.Ok? ==> |w.value| == |r.columns| && AbsSum(w.value) == 1.0
    ensures w.Err? ==> w.error == FitRejected || w.error == UnknownFactor(cfg.target) || w.error == InsufficientOverlap
  {
    var fit :- WindowFit(r, cfg, lib, t);
    WindowPortfolio(r, cfg, lib, t);
    var loadings := EigenPortfolios(fit).value;
    var p :- NewPortfolio(InSample(r, cfg.window, t), loadings, cfg.target);
    TargetNormPositive(r, cfg, lib, t);
    Ok(BuildWeights(p).values[0])
  }

  /** The engine pipeline yields exactly BaseWeights. */
  lemma EngineWeightsAreBaseWeights(r: Frame, cfg: Config, lib: Numerics, t: nat)
    requires r.Valid() && cfg.window <= t <= |r.index|
    requires TargetExposed(r, cfg, lib, t)
    ensures EngineWeights(r, cfg, lib, t) == BaseWeights(r, cfg, lib, t)
  {
    var fit := WindowFit(r, cfg, lib, t);
    if fit.Ok? {
      WindowPortfolio(r, cfg, lib, t);
      var loadings := EigenPortfolios(fit.value).value;
      var p := NewPortfolio(InSample(r, cfg.window, t), loadings, cfg.target);
      if p.Ok? {
        TargetNormPositive(r, cfg, lib, t);
        var w := BaseWeights(r, cfg, lib, t).value;
        assert EngineWeights(r, cfg, lib, t).value == Weights(p.value);
        assert Weights(p.value) == w;
      }
    }
  }

  /** The unscaled weights are the target loadings of the window's fit divided
      by their L1 norm, which is positive; their absolute values sum to 1. */
  lemma BaseWeightsNormalised(r: Frame, cfg: Config, lib: Numerics, t: nat)
    requires r.Valid() && cfg.window <= t <= |r.index|
    requires TargetExposed(r, cfg, lib, t)
    requires BaseWeights(r, cfg, lib, t).Ok?
    ensures
      var b := BaseWeights(r, cfg, lib, t).value;
      var e := TargetLoadings(r, cfg, lib, t);
      && |b| == |r.columns|
      && AbsSum(e) > 0.0
      && AbsSum(b) == 1.0
  {
    var b := BaseWeights(r, cfg, lib, t).value;
    var e := TargetLoadings(r, cfg, lib, t);
    TargetNormPositive(r, cfg, lib, t);
    NormalisedBy(b, e, AbsSum(e));
  }

  /** One pass-2 iteration at step t: the regime rule and the score. */
  function StepAt(r: Frame, cfg: Config, lib: Numerics, stats: Statistics, threshold: real, t: nat): (s: Result<Step>)
    requires r.Valid() && cfg.window <= t && t + 1 < |r.index|
    requires TargetExposed(r, cfg, lib, t)
    ensures s.Ok? <==> Pc1Volatility(r, cfg, lib, stats, t).Ok? && BaseWeights(r, cfg, lib, t).Ok?
    ensures s.Err? ==>
      || s.error == FitRejected || s.error == KeyError("PC1")
      || s.error == UnknownFactor(cfg.target) || s.error == InsufficientOverlap
  {
    var vol :- Pc1Volatility(r, cfg, lib, stats, t);
    var base :- BaseWeights(r, cfg, lib, t);
    var w := if vol > threshold then Scale(cfg.riskScaleHighVol, base) else base;
    Ok(Step(w, Dot(w, r.values[t + 1])))
  }

  /** The walk-forward loop: step applied to every t in [lo, hi) in order,
      stopping at the first failure, which becomes the loop's failure. */
  function WalkForward<T>(step: nat --> Result<T>, lo: nat, hi: nat): (r: Result<seq<T>>)
    requires (forall t :: lo <= t < hi ==> step.requires(t))
    decreases hi - lo
    ensures r.Ok? <==> forall t :: lo <= t < hi ==> step(t).Ok?
    ensures r.Ok? ==> |r.value| == (if lo <= hi then hi - lo else 0)
    ensures r.Ok? ==> forall k :: 0 <= k < |r.value| ==> step(lo + k) == Ok(r.value[k])
    ensures r.Err? ==>
      exists t :: lo <= t < hi && step(t) == Err(r.error) && (forall u :: lo <= u < t ==> step(u).Ok?)
  {
    if lo >= hi then Ok([])
    else
      var head := step(lo);
      if head.Err? then Err(head.error)
      else
        var rest := WalkForward(step, lo + 1, hi);
        if rest.Err? then Err(rest.error)
        else
          var all := [head.value] + rest.value;
          assert forall k :: 1 <= k < |all| ==> all[k] == rest.value[k - 1];
          Ok(all)
  }

  /** vols holds the first-factor volatility of every window, in order:
      entry k is that of the window ending before row window + k. */
  predicate WindowVolatilities(r: Frame, cfg: Config, lib: Numerics, stats: Statistics, vols: seq<real>)
    requires r.Valid()
  {
    && |vols| == (if cfg.window <= |r.index| then |r.index| - cfg.window else 0)
    && forall k :: 0 <= k < |vols| ==> Pc1Volatility(r, cfg, lib, stats, cfg.window + k) == Ok(vols[k])
  }

  /** Entry k of a successful walk is the outcome of step lo + k. */
  lemma WalkForwardAt<T>(step: nat --> Result<T>, lo: nat, hi: nat, k: nat)
    requires (forall t :: lo <= t < hi ==> step.requires(t))
    requires WalkForward(step, lo, hi).Ok? && k < |WalkForward(step, lo, hi).value|
    ensures lo + k < hi && step(lo + k) == Ok(WalkForward(step, lo, hi).value[k])
  {
  }

  /** Pass 1: one PC1 volatility per t in [window, len). */
  function Pass1(r: Frame, cfg: Config, lib: Numerics, stats: Statistics): (p: Result<seq<real>>)
    requires r.Valid()
    ensures p.Ok? ==> WindowVolatilities(r, cfg, lib, stats, p.value)
  {
    WalkForward(t requires r.Valid() && cfg.window <= t <= |r.index| => Pc1Volatility(r, cfg, lib, stats, t),
                cfg.window, |r.index|)
  }

  /** The non-zero-norm assumption for every pass-2 step. */
  predicate ExposedThroughout(r: Frame, cfg: Config, lib: Numerics)
    requires r.Valid()
  {
    forall t :: cfg.window <= t && t + 1 < |r.index| ==> TargetExposed(r, cfg, lib, t)
  }

  /** len(dates) - 1, the end of pass 2's range (0 for an empty frame). */
  function LastStep(r: Frame): nat
  {
    if |r.index| >= 1 then |r.index| - 1 else 0
  }

  /** Step t of pass 2. Pass2 only asks for t in pass 2's range, so the
      IndexError branch is never reached from it (Pass2Outcome lists the
      errors pass 2 can raise): it only makes StepFn total. */
  function StepOrOutOfRange(r: Frame, cfg: Config, lib: Numerics, stats: Statistics, threshold: real, t: nat): Result<Step>
    requires r.Valid() && ExposedThroughout(r, cfg, lib)
  {
    if cfg.window <= t && t + 1 < |r.index| then StepAt(r, cfg, lib, stats, threshold, t) else Err(IndexError)
  }

  /** The loop body of pass 2 as a function of t. */
  function StepFn(r: Frame, cfg: Config, lib: Numerics, stats: Statistics, threshold: real): nat -> Result<Step>
    requires r.Valid() && ExposedThroughout(r, cfg, lib)
  {
    (t: nat) => StepOrOutOfRange(r, cfg, lib, stats, threshold, t)
  }

  /** Applying the loop body to t runs step t. */
  lemma StepFnAt(r: Frame, cfg: Config, lib: Numerics, stats: Statistics, threshold: real, t: nat)
    requires r.Valid() && ExposedThroughout(r, cfg, lib) && cfg.window <= t && t + 1 < |r.index|
    ensures StepFn(r, cfg, lib, stats, threshold)(t) == StepAt(r, cfg, lib, stats, threshold, t)
  {
  }

  /** Pass 2: one step per t in [window, len - 1). */
  function Pass2(r: Frame, cfg: Config, lib: Numerics, stats: Statistics, threshold: real): (p: Result<seq<Step>>)
    requires r.Valid() && ExposedThroughout(r, cfg, lib)
    ensures p.Ok? ==> |p.value| == (if cfg.window + 1 <= |r.index| then |r.index| - cfg.window - 1 else 0)
  {
    WalkForward(StepFn(r, cfg, lib, stats, threshold), cfg.window, LastStep(r))
  }

  /** The per-step regime rule: the weights are the base weights, scaled by
      risk_scale_high_vol exactly when the window's first-factor volatility is
      strictly above the threshold, and the step's return is their dot product
      with the row after the window's end. */
  lemma StepRule(r: Frame, cfg: Config, lib: Numerics, stats: Statistics, threshold: real, t: nat)
    requires r.Valid() && cfg.window <= t && t + 1 < |r.index|
    requires TargetExposed(r, cfg, lib, t)
    requires StepAt(r, cfg, lib, stats, threshold, t).Ok?
    ensures
      var s := StepAt(r, cfg, lib, stats, threshold, t).value;
      var vol := Pc1Volatility(r, cfg, lib, stats, t).value;
      var base := BaseWeights(r, cfg, lib, t).value;
      && (vol > threshold ==> s.weights == Scale(cfg.riskScaleHighVol, base))
      && (vol <= threshold ==> s.weights == base)
      && |s.weights| == |r.columns|
      && s.portfolioReturn == Dot(s.weights, r.values[t + 1])
  {
  }

  /** RollingPCABacktest.run followed by get_results. numpy's quantile first
      checks that the level lies in [0, 1] and then needs at least one
      volatility; the three outputs are labelled by dates[window + 1:] and
      have one entry per scored step. */
  function Run(r: Frame, cfg: Config, lib: Numerics, stats: Statistics): (res: Result<BacktestResult>)
    requires r.Valid() && ExposedThroughout(r, cfg, lib)
    ensures res.Ok? ==>
      var out := res.value;
      && out.portfolioReturns.index == out.weightsHistory.index == out.pc1VolSeries.index
      && |out.portfolioReturns.values| == |out.weightsHistory.values| == |out.pc1VolSeries.values|
  {
    var vols :- Pass1(r, cfg, lib, stats);
    if !(0.0 <= cfg.volThresholdQuantile <= 1.0) then Err(QuantileOutOfRange)
    else if |vols| == 0 then Err(EmptyQuantile)
    else
      var threshold := stats.quantile(vols, cfg.volThresholdQuantile);
      var dates := r.index[cfg.window + 1..];
      var steps :- Pass2(r, cfg, lib, stats, threshold);
      Ok(BacktestResult(
        Series(dates, seq(|steps|, k requires 0 <= k < |steps| => steps[k].portfolioReturn)),
        Frame(dates, if |steps| == 0 then [] else r.columns, seq(|steps|, k requires 0 <= k < |steps| => steps[k].weights)),
        Series(dates, vols[..|vols| - 1]),
        threshold))
  }

  /** Pass 1 fails exactly when it has at least one window and the library
      rejects the window's shape or there is no first factor. */
  lemma Pass1Outcome(r: Frame, cfg: Config, lib: Numerics, stats: Statistics)
    requires r.Valid()
    ensures
      var p := Pass1(r, cfg, lib, stats);
      && (p.Ok? <==>
            |r.index| <= cfg.window || (LibraryAccepts(cfg.window, |r.columns|, cfg.nComponents) && cfg.nComponents >= 1))
      && (p.Err? ==> p.error == FitRejected || p.error == KeyError("PC1"))
  {
    var p := Pass1(r, cfg, lib, stats);
    if |r.index| > cfg.window {
      var v := Pc1Volatility(r, cfg, lib, stats, cfg.window);
      assert p.Ok? ==> v.Ok?;
    }
  }

  /** Pass 2 fails exactly when it has at least one step and the library
      rejects the window, there is no first factor, the target factor is
      unknown or fewer than two assets remain. */
  lemma Pass2Outcome(r: Frame, cfg: Config, lib: Numerics, stats: Statistics, threshold: real)
    requires r.Valid() && ExposedThroughout(r, cfg, lib)
    ensures
      var p := Pass2(r, cfg, lib, stats, threshold);
      && (p.Ok? <==>
            || |r.index| <= cfg.window + 1
            || (&& LibraryAccepts(cfg.window, |r.columns|, cfg.nComponents)
                && cfg.nComponents >= 1
                && cfg.target in FactorNames(cfg.nComponents)
                && |r.columns| >= 2))
      && (p.Err? ==>
            || p.error == FitRejected || p.error == KeyError("PC1")
            || p.error == UnknownFactor(cfg.target) || p.error == InsufficientOverlap)
  {
    var p := Pass2(r, cfg, lib, stats, threshold);
    if |r.index| > cfg.window + 1 {
      var s := StepAt(r, cfg, lib, stats, threshold, cfg.window);
      assert p.Ok? ==> s.Ok?;
    }
    if p.Err? {
      var t :| cfg.window <= t < LastStep(r) && StepAt(r, cfg, lib, stats, threshold, t) == Err(p.error);
    }
  }

  /** Entry k of a successful pass 2 is the step computed for t = window + k. */
  lemma Pass2Step(r: Frame, cfg: Config, lib: Numerics, stats: Statistics, threshold: real, k: nat)
    requires r.Valid() && ExposedThroughout(r, cfg, lib)
    requires Pass2(r, cfg, lib, stats, threshold).Ok?
    requires k < |Pass2(r, cfg, lib, stats, threshold).value|
    ensures cfg.window + k + 1 < |r.index|
    ensures StepAt(r, cfg, lib, stats, threshold, cfg.window + k) == Ok(Pass2(r, cfg, lib, stats, threshold).value[k])
  {
    WalkForwardAt(StepFn(r, cfg, lib, stats, threshold), cfg.window, LastStep(r), k);
    StepFnAt(r, cfg, lib, stats, threshold, cfg.window + k);
  }

  /** run fails on a quantile level outside [0, 1] once pass 1 is through,
      then with an empty quantile when there is no window at all, and
      otherwise succeeds exactly when every window can be fitted with a first
      factor and, if there is an out-of-sample step, the target factor exists
      and at least two assets are held. */
  lemma RunOutcome(r: Frame, cfg: Config, lib: Numerics, stats: Statistics)
    requires r.Valid() && ExposedThroughout(r, cfg, lib)
    ensures Pass1(r, cfg, lib, stats).Ok? && !(0.0 <= cfg.volThresholdQuantile <= 1.0) ==>
      Run(r, cfg, lib, stats) == Err(QuantileOutOfRange)
    ensures |r.index| <= cfg.window && 0.0 <= cfg.volThresholdQuantile <= 1.0 ==>
      Run(r, cfg, lib, stats) == Err(EmptyQuantile)
    ensures Run(r, cfg, lib, stats).Ok? <==>
      && 0.0 <= cfg.volThresholdQuantile <= 1.0
      && |r.index| > cfg.window
      && LibraryAccepts(cfg.window, |r.columns|, cfg.nComponents)
      && cfg.nComponents >= 1
      && (|r.index| == cfg.window + 1 || (cfg.target in FactorNames(cfg.nComponents) && |r.columns| >= 2))
    ensures Run(r, cfg, lib, stats).Err? ==>
      var e := Run(r, cfg, lib, stats).error;
      || e == QuantileOutOfRange || e == EmptyQuantile || e == FitRejected || e == KeyError("PC1")
      || e == UnknownFactor(cfg.target) || e == InsufficientOverlap
  {
    Pass1Outcome(r, cfg, lib, stats);
    var pass1 := Pass1(r, cfg, lib, stats);
    if pass1.Ok? && |pass1.value| > 0 {
      Pass2Outcome(r, cfg, lib, stats, stats.quantile(pass1.value, cfg.volThresholdQuantile));
    }
  }

  /** A return table without assets meets the norm assumption, since no step
      reaches the division, and once it has a window the run stops at pass
      1's first fit. */
  lemma NoAssetsRejectedByFit(r: Frame, cfg: Config, lib: Numerics, stats: Statistics)
    requires r.Valid() && |r.columns| == 0 && |r.index| > cfg.window
    ensures ExposedThroughout(r, cfg, lib)
    ensures Run(r, cfg, lib, stats) == Err(FitRejected)
  {
  }

  /** The three outputs share the labels dates[window + 1:], one per
      scored step, so pass 1's last volatility is not reported. */
  lemma RunAligned(r: Frame, cfg: Config, lib: Numerics, stats: Statistics)
    requires r.Valid() && ExposedThroughout(r, cfg, lib)
    requires Run(r, cfg, lib, stats).Ok?
    ensures
      var res := Run(r, cfg, lib, stats).value;
      && |r.index| > cfg.window
      && res.portfolioReturns.index == r.index[cfg.window + 1..]
      && res.weightsHistory.index == r.index[cfg.window + 1..]
      && res.pc1VolSeries.index == r.index[cfg.window + 1..]
      && |res.portfolioReturns.values| == |r.index| - cfg.window - 1
  {
    var pass1 := Pass1(r, cfg, lib, stats).value;
    var threshold := stats.quantile(pass1, cfg.volThresholdQuantile);
    var steps := Pass2(r, cfg, lib, stats, threshold).value;
    assert |steps| == |r.index| - cfg.window - 1;
  }

  /** The outputs are well-formed series and a well-formed frame whose
      columns are the assets (none when there is no step to score). */
  lemma RunWellFormed(r: Frame, cfg: Config, lib: Numerics, stats: Statistics)
    requires r.Valid() && ExposedThroughout(r, cfg, lib)
    requires Run(r, cfg, lib, stats).Ok?
    ensures
      var res := Run(r, cfg, lib, stats).value;
      && res.portfolioReturns.Valid() && res.weightsHistory.Valid() && res.pc1VolSeries.Valid()
      && res.weightsHistory.columns == (if |r.index| == cfg.window + 1 then [] else r.columns)
  {
    var res := Run(r, cfg, lib, stats).value;
    var pass1 := Pass1(r, cfg, lib, stats).value;
    var threshold := stats.quantile(pass1, cfg.volThresholdQuantile);
    var steps := Pass2(r, cfg, lib, stats, threshold).value;
    assert |steps| == |r.index| - cfg.window - 1;
    DistinctSlice(r.index, cfg.window + 1, |r.index|);
    assert res.weightsHistory.values == seq(|steps|, k requires 0 <= k < |steps| => steps[k].weights);
    forall k | 0 <= k < |steps|
      ensures |res.weightsHistory.values[k]| == |res.weightsHistory.columns|
    {
      Pass2Step(r, cfg, lib, stats, threshold, k);
      StepRule(r, cfg, lib, stats, threshold, cfg.window + k);
    }
  }

  /** The volatility series holds the first-factor volatility of every window
      but the last, and the threshold is the configured quantile of the
      volatilities of all windows, the last included. */
  lemma RunVolatility(r: Frame, cfg: Config, lib: Numerics, stats: Statistics)
    requires r.Valid() && ExposedThroughout(r, cfg, lib)
    requires Run(r, cfg, lib, stats).Ok?
    ensures
      var res := Run(r, cfg, lib, stats).value;
      exists vols: seq<real> ::
        && WindowVolatilities(r, cfg, lib, stats, vols)
        && |vols| == |r.index| - cfg.window
        && res.volThreshold == stats.quantile(vols, cfg.volThresholdQuantile)
        && res.pc1VolSeries.values == vols[..|vols| - 1]
  {
    var res := Run(r, cfg, lib, stats).value;
    var vols := Pass1(r, cfg, lib, stats).value;
    assert WindowVolatilities(r, cfg, lib, stats, vols);
    assert |vols| == |r.index| - cfg.window;
    assert res.volThreshold == stats.quantile(vols, cfg.volThresholdQuantile);
    assert res.pc1VolSeries.values == vols[..|vols| - 1];
  }

  /** Entry k of run's outputs is entry k of pass 1 and of pass 2, the
      latter run against the reported threshold. */
  lemma RunEntry(r: Frame, cfg: Config, lib: Numerics, stats: Statistics, k: nat)
    requires r.Valid() && ExposedThroughout(r, cfg, lib)
    requires Run(r, cfg, lib, stats).Ok?
    requires k < |Run(r, cfg, lib, stats).value.portfolioReturns.values|
    ensures
      var res := Run(r, cfg, lib, stats).value;
      var pass1 := Pass1(r, cfg, lib, stats);
      var pass2 := Pass2(r, cfg, lib, stats, res.volThreshold);
      && pass1.Ok? && pass2.Ok?
      && k < |pass2.value| && k + 1 < |pass1.value|
      && k < |res.pc1VolSeries.values| && k < |res.weightsHistory.values|
      && res.pc1VolSeries.values[k] == pass1.value[k]
      && res.weightsHistory.values[k] == pass2.value[k].weights
      && res.portfolioReturns.values[k] == pass2.value[k].portfolioReturn
  {
  }

  /** Step k of the backtest in a volatile regime: when the volatility
      reported for that date is strictly above the single threshold, the
      weights are the window's base weights scaled by risk_scale_high_vol. */
  lemma RunStepVolatile(r: Frame, cfg: Config, lib: Numerics, stats: Statistics, k: nat)
    requires r.Valid() && ExposedThroughout(r, cfg, lib)
    requires Run(r, cfg, lib, stats).Ok?
    requires k < |Run(r, cfg, lib, stats).value.portfolioReturns.values|
    ensures cfg.window + k + 1 < |r.index|
    ensures BaseWeights(r, cfg, lib, cfg.window + k).Ok?
    ensures
      var res := Run(r, cfg, lib, stats).value;
      && k < |res.pc1VolSeries.values| && k < |res.weightsHistory.values|
      && (res.pc1VolSeries.values[k] > res.volThreshold ==>
            res.weightsHistory.values[k] == Scale(cfg.riskScaleHighVol, BaseWeights(r, cfg, lib, cfg.window + k).value))
  {
    RunStepFacts(r, cfg, lib, stats, k);
    RunVolatilityEntry(r, cfg, lib, stats, k);
    var res := Run(r, cfg, lib, stats).value;
    StepRule(r, cfg, lib, stats, res.volThreshold, cfg.window + k);
  }

  /** Step k of the backtest in a calm regime: when the volatility reported
      for that date is at most the threshold, the weights are the window's
      base weights unchanged. */
  lemma RunStepCalm(r: Frame, cfg: Config, lib: Numerics, stats: Statistics, k: nat)
    requires r.Valid() && ExposedThroughout(r, cfg, lib)
    requires Run(r, cfg, lib, stats).Ok?
    requires k < |Run(r, cfg, lib, stats).value.portfolioReturns.values|
    ensures cfg.window + k + 1 < |r.index|
    ensures BaseWeights(r, cfg, lib, cfg.window + k).Ok?
    ensures
      var res := Run(r, cfg, lib, stats).value;
      && k < |res.pc1VolSeries.values| && k < |res.weightsHistory.values|
      && (res.pc1VolSeries.values[k] <= res.volThreshold ==>
            res.weightsHistory.values[k] == BaseWeights(r, cfg, lib, cfg.window + k).value)
  {
    RunStepFacts(r, cfg, lib, stats, k);
    RunVolatilityEntry(r, cfg, lib, stats, k);
    var res := Run(r, cfg, lib, stats).value;
    StepRule(r, cfg, lib, stats, res.volThreshold, cfg.window + k);
  }

  /** Step k of run is the pass-2 step at t = window + k under the reported
      threshold, and the volatility reported for its date is that window's. */
  lemma RunStepFacts(r: Frame, cfg: Config, lib: Numerics, stats: Statistics, k: nat)
    requires r.Valid() && ExposedThroughout(r, cfg, lib)
    requires Run(r, cfg, lib, stats).Ok?
    requires k < |Run(r, cfg, lib, stats).value.portfolioReturns.values|
    ensures cfg.window + k + 1 < |r.index|
    ensures
      var res := Run(r, cfg, lib, stats).value;
      var step := StepAt(r, cfg, lib, stats, res.volThreshold, cfg.window + k);
      && step.Ok?
      && k < |res.pc1VolSeries.values| && k < |res.weightsHistory.values|
      && res.weightsHistory.values[k] == step.value.weights
      && res.portfolioReturns.values[k] == step.value.portfolioReturn
  {
    RunEntry(r, cfg, lib, stats, k);
    var res := Run(r, cfg, lib, stats).value;
    Pass2Step(r, cfg, lib, stats, res.volThreshold, k);
  }

  /** The volatility reported for the date of step k is that of the window
      ending at window + k. */
  lemma RunVolatilityEntry(r: Frame, cfg: Config, lib: Numerics, stats: Statistics, k: nat)
    requires r.Valid() && ExposedThroughout(r, cfg, lib)
    requires Run(r, cfg, lib, stats).Ok?
    requires k < |Run(r, cfg, lib, stats).value.pc1VolSeries.values|
    ensures cfg.window + k < |r.index|
    ensures Pc1Volatility(r, cfg, lib, stats, cfg.window + k) == Ok(Run(r, cfg, lib, stats).value.pc1VolSeries.values[k])
  {
    var pass1 := Pass1(r, cfg, lib, stats).value;
    assert Run(r, cfg, lib, stats).value.pc1VolSeries.values == pass1[..|pass1| - 1];
    WindowVolatilityAt(r, cfg, lib, stats, pass1, k);
  }

  lemma WindowVolatilityAt(r: Frame, cfg: Config, lib: Numerics, stats: Statistics, vols: seq<real>, k: nat)
    requires r.Valid() && WindowVolatilities(r, cfg, lib, stats, vols) && k < |vols|
    ensures cfg.window + k < |r.index|
    ensures Pc1Volatility(r, cfg, lib, stats, cfg.window + k) == Ok(vols[k])
  {
  }

  /** The return reported for step k is the dot product of that step's
      weights with the returns of row window + k + 1, the first row after
      the window. */
  lemma RunScore(r: Frame, cfg: Config, lib: Numerics, stats: Statistics, k: nat)
    requires r.Valid() && ExposedThroughout(r, cfg, lib)
    requires Run(r, cfg, lib, stats).Ok?
    requires k < |Run(r, cfg, lib, stats).value.portfolioReturns.values|
    ensures cfg.window + k + 1 < |r.index|
    ensures
      var res := Run(r, cfg, lib, stats).value;
      && k < |res.weightsHistory.values|
      && |res.weightsHistory.values[k]| == |r.columns|
      && res.portfolioReturns.values[k] == Dot(res.weightsHistory.values[k], r.values[cfg.window + k + 1])
  {
    RunStepFacts(r, cfg, lib, stats, k);
    var res := Run(r, cfg, lib, stats).value;
    StepRule(r, cfg, lib, stats, res.volThreshold, cfg.window + k);
  }

  /** When the risk scale is non-negative, the gross exposure of step k is
      risk_scale_high_vol in a volatile regime and 1 otherwise. */
  lemma RunGrossExposure(r: Frame, cfg: Config, lib: Numerics, stats: Statistics, k: nat)
    requires r.Valid() && ExposedThroughout(r, cfg, lib)
    requires Run(r, cfg, lib, stats).Ok?
    requires k < |Run(r, cfg, lib, stats).value.portfolioReturns.values|
    requires cfg.riskScaleHighVol >= 0.0
    ensures
      var res := Run(r, cfg, lib, stats).value;
      && k < |res.pc1VolSeries.values| && k < |res.weightsHistory.values|
      && AbsSum(res.weightsHistory.values[k]) ==
           if res.pc1VolSeries.values[k] > res.volThreshold then cfg.riskScaleHighVol else 1.0
  {
    var res := Run(r, cfg, lib, stats).value;
    var t := cfg.window + k;
    RunStepVolatile(r, cfg, lib, stats, k);
    RunStepCalm(r, cfg, lib, stats, k);
    var base := BaseWeights(r, cfg, lib, t).value;
    BaseWeightsNormalised(r, cfg, lib, t);
    if res.pc1VolSeries.values[k] > res.volThreshold {
      ScaledUnitExposure(base, cfg.riskScaleHighVol);
    }
  }

  /** The gross exposure of one pass-2 step: risk_scale_high_vol when the
      window's volatility is above the threshold, 1 otherwise. */
  lemma StepGrossExposure(r: Frame, cfg: Config, lib: Numerics, stats: Statistics, threshold: real, t: nat)
    requires r.Valid() && cfg.window <= t && t + 1 < |r.index|
    requires TargetExposed(r, cfg, lib, t)
    requires StepAt(r, cfg, lib, stats, threshold, t).Ok?
    requires cfg.riskScaleHighVol >= 0.0
    ensures Pc1Volatility(r, cfg, lib, stats, t).Ok?
    ensures AbsSum(StepAt(r, cfg, lib, stats, threshold, t).value.weights) ==
      if Pc1Volatility(r, cfg, lib, stats, t).value > threshold then cfg.riskScaleHighVol else 1.0
  {
    BaseWeightsNormalised(r, cfg, lib, t);
    if Pc1Volatility(r, cfg, lib, stats, t).value > threshold {
      ScaledUnitExposure(BaseWeights(r, cfg, lib, t).value, cfg.riskScaleHighVol);
    }
  }

  /** Scaling unit-gross-exposure weights by c >= 0 gives gross exposure c. */
  lemma ScaledUnitExposure(w: seq<real>, c: real)
    requires c >= 0.0 && AbsSum(w) == 1.0
    ensures AbsSum(Scale(c, w)) == c
  {
    ScaleIsScaledBy(c, w);
    AbsSumScaled(Scale(c, w), c, w);
  }

  /** No look-ahead in the volatility: it depends only on the asset columns
      and on the rows [t - window, t) of the window ending before t. */
  lemma VolatilitySeesOnlyItsWindow(r: Frame, r2: Frame, cfg: Config, lib: Numerics, stats: Statistics, t: nat)
    requires r.Valid() && r2.Valid()
    requires cfg.window <= t <= |r.index| && t <= |r2.index|
    requires |r.columns| == |r2.columns|
    requires r.values[t - cfg.window..t] == r2.values[t - cfg.window..t]
    ensures Pc1Volatility(r, cfg, lib, stats, t) == Pc1Volatility(r2, cfg, lib, stats, t)
  {
    assert LeadingFactorSeries(r, cfg, lib, t) == LeadingFactorSeries(r2, cfg, lib, t);
  }

  /** No look-ahead in the weights: the base weights depend only on the asset
      columns and on the rows of the window ending before t. */
  lemma WeightsSeeOnlyTheirWindow(r: Frame, r2: Frame, cfg: Config, lib: Numerics, t: nat)
    requires r.Valid() && r2.Valid()
    requires cfg.window <= t <= |r.index| && t <= |r2.index|
    requires |r.columns| == |r2.columns|
    requires r.values[t - cfg.window..t] == r2.values[t - cfg.window..t]
    requires TargetExposed(r, cfg, lib, t) && TargetExposed(r2, cfg, lib, t)
    ensures BaseWeights(r, cfg, lib, t) == BaseWeights(r2, cfg, lib, t)
  {
    if cfg.target in FactorNames(cfg.nComponents) {
      assert TargetLoadings(r, cfg, lib, t) == TargetLoadings(r2, cfg, lib, t);
    }
  }

  /** A pass-2 step, for a given threshold, depends only on the window ending
      before t and on row t + 1, which it scores against. */
  lemma StepSeesOnlyWindowAndNextRow(
    r: Frame, r2: Frame, cfg: Config, lib: Numerics, stats: Statistics, threshold: real, t: nat)
    requires r.Valid() && r2.Valid()
    requires cfg.window <= t && t + 1 < |r.index| && t + 1 < |r2.index|
    requires |r.columns| == |r2.columns|
    requires r.values[t - cfg.window..t] == r2.values[t - cfg.window..t]
    requires r.values[t + 1] == r2.values[t + 1]
    requires TargetExposed(r, cfg, lib, t) && TargetExposed(r2, cfg, lib, t)
    ensures StepAt(r, cfg, lib, stats, threshold, t) == StepAt(r2, cfg, lib, stats, threshold, t)
  {
    VolatilitySeesOnlyItsWindow(r, r2, cfg, lib, stats, t);
    WeightsSeeOnlyTheirWindow(r, r2, cfg, lib, t);
  }
}

=== FILE: vectors.dfy ===
/** Real vectors: sums, absolute sums, dot products and scaling, with the
    algebraic facts the portfolio and diagnostics proofs rest on. Sums fold
    from the last element so that prefix sums extend by one step. */
module Vectors {

  function Abs(x: real): (r: real)
    ensures r >= 0.0
    ensures x != 0.0 ==> r > 0.0
  {
    if x < 0.0 then -x else x
  }

  function Sum(v: seq<real>): real
  {
    if |v| == 0 then 0.0 else Sum(v[..|v| - 1]) + v[|v| - 1]
  }

  /** The absolute value of each entry. */
  function Magnitudes(v: seq<real>): (m: seq<real>)
    ensures |m| == |v|
    ensures forall i :: 0 <= i < |v| ==> m[i] >= 0.0
  {
    seq(|v|, i requires 0 <= i < |v| => Abs(v[i]))
  }

  /** The L1 norm: sum of absolute values. */
  function AbsSum(v: seq<real>): real
  {
    Sum(Magnitudes(v))
  }

  function Dot(a: seq<real>, b: seq<real>): real
    requires |a| == |b|
  {
    if |a| == 0 then 0.0 else Dot(a[..|a| - 1], b[..|b| - 1]) + a[|a| - 1] * b[|b| - 1]
  }

  function Scale(c: real, v: seq<real>): (r: seq<real>)
    ensures |r| == |v|
  {
    seq(|v|, i requires 0 <= i < |v| => c * v[i])
  }

  /** w is v multiplied entrywise by c. Stated pointwise so that proofs
      never unfold a sequence comprehension. */
  ghost predicate ScaledBy(w: seq<real>, c: real, v: seq<real>)
  {
    |w| == |v| && forall i :: 0 <= i < |v| ==> w[i] == c * v[i]
  }

  lemma AbsMulNonNegative(c: real, x: real, y: real)
    requires c >= 0.0 && y == c * x
    ensures Abs(y) == c * Abs(x)
  {
    if x < 0.0 { assert y <= 0.0; } else { assert y >= 0.0; }
  }

  lemma MagnitudeScaled(w: seq<real>, c: real, v: seq<real>, i: nat)
    requires c >= 0.0 && ScaledBy(w, c, v) && i < |v|
    ensures Magnitudes(w)[i] == c * Magnitudes(v)[i]
  {
    AbsMulNonNegative(c, v[i], w[i]);
  }

  /** Scaling by a non-negative factor scales every magnitude. */
  lemma MagnitudesScaled(w: seq<real>, c: real, v: seq<real>)
    requires c >= 0.0 && ScaledBy(w, c, v)
    ensures ScaledBy(Magnitudes(w), c, Magnitudes(v))
  {
    forall i | 0 <= i < |v|
      ensures Magnitudes(w)[i] == c * Magnitudes(v)[i]
    {
      MagnitudeScaled(w, c, v, i);
    }
  }

  /** Scaling a vector by a non-negative factor scales its L1 norm. */
  lemma AbsSumScaled(w: seq<real>, c: real, v: seq<real>)
    requires c >= 0.0 && ScaledBy(w, c, v)
    ensures AbsSum(w) == c * AbsSum(v)
  {
    MagnitudesScaled(w, c, v);
    SumScaled(Magnitudes(w), c, Magnitudes(v));
  }

  /** Scaling a vector scales its sum. */
  lemma {:induction false} SumScaled(w: seq<real>, c: real, v: seq<real>)
    requires ScaledBy(w, c, v)
    ensures Sum(w) == c * Sum(v)
  {
    if |v| > 0 {
      SumScaled(w[..|v| - 1], c, v[..|v| - 1]);
    }
  }

  /** Scaling the weights scales the dot product. */
  lemma {:induction false} DotScaled(w: seq<real>, c: real, a: seq<real>, b: seq<real>)
    requires ScaledBy(w, c, a) && |a| == |b|
    ensures Dot(w, b) == c * Dot(a, b)
  {
    if |a| > 0 {
      var n := |a| - 1;
      DotScaled(w[..n], c, a[..n], b[..n]);
    }
  }

  lemma ScaleIsScaledBy(c: real, v: seq<real>)
    ensures ScaledBy(Scale(c, v), c, v)
  {
  }

  lemma AbsSumNonNegative(v: seq<real>)
    ensures AbsSum(v) >= 0.0
  {
    SumNonNegative(Magnitudes(v));
  }

  lemma {:induction false} SumNonNegative(v: seq<real>)
    requires forall i :: 0 <= i < |v| ==> v[i] >= 0.0
    ensures Sum(v) >= 0.0
  {
    if |v| > 0 {
      SumNonNegative(v[..|v| - 1]);
    }
  }

  /** In a non-negative vector every entry is at most the total. */
  lemma {:induction false} EntryAtMostSum(v: seq<real>, i: nat)
    requires forall j :: 0 <= j < |v| ==> v[j] >= 0.0
    requires i < |v|
    ensures v[i] <= Sum(v)
  {
    var n := |v| - 1;
    if i < n {
      EntryAtMostSum(v[..n], i);
      assert v[n] >= 0.0;
    } else {
      SumNonNegative(v[..n]);
    }
  }

  /** A non-negative vector with a positive entry has a positive sum. */
  lemma {:induction false} SumPositive(v: seq<real>, i: nat)
    requires forall j :: 0 <= j < |v| ==> v[j] >= 0.0
    requires i < |v| && v[i] > 0.0
    ensures Sum(v) > 0.0
  {
    EntryAtMostSum(v, i);
  }

  /** Dividing every entry by s is scaling by 1 / s. */
  lemma DivisionIsScalingAll(w: seq<real>, e: seq<real>, s: real)
    requires s != 0.0
    requires |w| == |e| && forall a :: 0 <= a < |e| ==> w[a] == e[a] / s
    ensures ScaledBy(w, 1.0 / s, e)
  {
    forall a | 0 <= a < |e|
      ensures w[a] == (1.0 / s) * e[a]
    {
      DivisionIsScaling(e[a], s);
    }
  }

  lemma InverseTimes(s: real)
    requires s != 0.0
    ensures (1.0 / s) * s == 1.0
  {
  }

  lemma DivisionIsScaling(x: real, s: real)
    requires s != 0.0
    ensures x / s == (1.0 / s) * x
  {
  }
}
